=== FILE: README.md ===
# video_splitter in Dafny

A model of the core of `video_splitter`, a tool that splits a video in two at
the black scene nearest to its middle. It finds black scenes with the media
tool's blackdetect filter and takes the midpoint of each. It picks the first
midpoint nearest to half the duration. Then it cuts `[0, t]` into
`<base>.part1<ext>` and `[t, duration]` into `<base>.part2<ext>` with the
"smart cut". The smart cut copies the streams when `t` is a keyframe.
Otherwise it re-encodes up to the next keyframe, copies the rest, and
concatenates the two pieces.

The media tool is not modelled. Each workflow function takes it as a
parameter, `tool: Command -> Reply`, which maps each command to an exit
status and the text printed, so a command issued twice gets the same reply
both times. Each workflow step returns a `Run`: the
commands it issued, in order, and its outcome, which is either a value or
the exception that escapes. So the contracts state which tool calls happen,
in which order, when the run stops, and how each value is decoded from the
text.

Modules, following the source:

- `Options`: the optional value.
- `Text`: the Python string and number built-ins the core relies on. These
  are `str.strip`, `str.split(",")`, `str.splitlines`, `float()` on
  positional decimals, and the `:.2f`/`:.3f` formats as exact
  round-half-to-even.
- `Patterns`: the three regular expressions, each a list of tokens. It holds
  a greedy matcher, proved sound and complete against the declarative reading
  of the expression, and `re.findall` as a leftmost, non-overlapping scan.
- `Invoker`: the commands, the exceptions, `run_ffmpeg_commands`, running a
  command list up to the first failure, and collecting the results of a list
  comprehension whose elements may raise.
- `Decoders`: the text decoders.
  - blackdetect midpoints
  - `pts_time:` values
  - the `video:<n>KiB` size and the bitrate
  - keyframe rows of the packet listing
- `Ffmpeg`: `get_video_metadata`, `get_interval_around_time`,
  `find_key_frames`, `detect_black_scene`, `detect_scene_change` and
  `smart_cut_video`.
- `Paths`: `os.path.splitext` over a separator set (`{'/'}` on POSIX,
  `{'\\', '/'}` on Windows) and the part names.
- `Workflow`: `process_video`.
- `Legacy`: the older helpers in `utils.py`.

Two points about the program's behaviour:

- `process_video` only ever consults black-scene detection. Scene-change
  detection is never a fallback.
- The smart cut removes its temporary directory explicitly only after a
  successful concatenation. On the other exit paths the directory is left to
  the `TemporaryDirectory` object, which removes it when the object is
  finalized. The directory itself is not modelled; see below.

## Model

| member | source | states |
|---|---|---|
| Text.Strip | video_splitter/ffmpeg.py:23-35 | the stripped codec name is a contiguous slice of the reply. Only white space precedes and follows it, and it neither starts nor ends with white space |
| Text.Split | video_splitter/ffmpeg.py:95 | `line.split(",")` yields at least one field. No field contains a comma. Joining the fields with commas gives back the line. There are two or more fields exactly when the line has a comma |
| Text.SplitLines | video_splitter/ffmpeg.py:95 | `splitlines()` yields boundary-free lines. Read in order, they hold exactly the non-boundary characters of the text. There are no lines exactly when the text is empty |
| Text.SplitLinesJoin | video_splitter/ffmpeg.py:95 | where `\n` is the only line boundary, joining the lines with `\n` gives back the text less one final `\n`, so the lines break exactly at the boundaries |
| Text.UnsignedValueExact | video_splitter/ffmpeg.py:36-48 | an unsigned number is read exactly when it is digits, optionally followed by a point and digits, with at least one digit in all. Its value is then the exact positional value |
| Text.ParseFloatExact | video_splitter/ffmpeg.py:36-48 | `float()` of the duration reply succeeds exactly when, inside white space (the `str.isspace` set; see "Left out") and after at most one sign, the text is an unsigned positional number. It then yields that number's exact value, negated for a leading `-` |
| Text.ParseDecimal | video_splitter/ffmpeg.py:121-124 | `float()` of a captured `\d+\.\d+` is that decimal's exact value |
| Text.ParseDigits | video_splitter/ffmpeg.py:62-63 | `float()` of a captured `\d+` is the integer it spells |
| Text.RoundHalfEven | video_splitter/ffmpeg.py:79 | the rounded integer is within one half of the input, and an exact half goes to the even neighbour |
| Text.Units | video_splitter/ffmpeg.py:79 | the number of last-place units printed is within one half of the exact scaled value, and even on a tie |
| Text.Fixed | video_splitter/ffmpeg.py:79 | a value printed to `places` decimals is that whole number of last-place units, and within half a unit of the exact value |
| Text.FixedNearest | video_splitter/ffmpeg.py:79 | no whole number of units lies nearer the exact scaled value than the printed one, and one as near loses the tie by being odd: printing rounds half to even |
| Text.FixedThree | video_splitter/ffmpeg.py:79 | a value printed with `:.3f` is its rounded number of thousandths, within 0.0005 of the exact value |
| Text.FixedThreeExact | video_splitter/ffmpeg.py:79 | a value with at most three decimals prints unchanged with `:.3f` |
| Text.FixedTwo | video_splitter/utils.py:87 | a split time printed with `:.2f` is its rounded number of hundredths, within 0.005 of the exact time |
| Text.FixedTwoExact | video_splitter/utils.py:87-100 | a split time with at most two decimals prints unchanged with `:.2f` |
| Text.FixedTwoIdempotent | video_splitter/utils.py:87-100 | printing a printed time again with `:.2f` changes nothing |
| Patterns.PatternsAreWellBehaved | video_splitter/ffmpeg.py:121-122 | the three patterns start with a non-empty literal, and no greedy run can swallow what follows it. The second condition is what makes greedy reading agree with backtracking |
| Patterns.CapturingOfPatterns | video_splitter/ffmpeg.py:143 | the blackdetect pattern captures three decimals, the `pts_time:` pattern one decimal, and the size pattern one run of digits |
| Patterns.MatchFromGroups | video_splitter/ffmpeg.py:121-124 | a greedy match captures one group per capturing token, each of that token's shape |
| Patterns.MatchFromSound | video_splitter/ffmpeg.py:121-122 | every greedy match is accepted by the regular expression, with the groups reported |
| Patterns.MatchFromComplete | video_splitter/ffmpeg.py:121-122 | if the expression accepts a text starting at a position, the greedy reader succeeds there, with a match at least as long |
| Patterns.GreedyAgreesWithRegex | video_splitter/ffmpeg.py:143 | the greedy reader succeeds at a position exactly when the regular expression accepts some text starting there |
| Patterns.FindAll | video_splitter/ffmpeg.py:143 | `re.findall`: each entry is the match at its start, in order and without overlap. Every position outside the entries holds no match |
| Patterns.FoundGroupsFit | video_splitter/ffmpeg.py:121-124 | every match `re.findall` reports has one group per capturing token, of its shape |
| Patterns.FindAllEmpty | video_splitter/ffmpeg.py:123-124 | `re.findall` is empty exactly when no position of the text holds a match |
| Patterns.NoPointNoMatch | video_splitter/utils.py:44-47 | a pattern that reads a decimal right after its opening literal finds nothing in a text where no occurrence of that literal is followed by digits and a decimal point |
| Patterns.FirstIsLeftmost | video_splitter/ffmpeg.py:62 | the first match reported is the leftmost one: no earlier position holds a match |
| Invoker.Invoke | video_splitter/ffmpeg.py:10-18 | a command yields its output exactly when its exit status is zero. Otherwise it raises a failure naming that command |
| Invoker.RunAll | video_splitter/ffmpeg.py:200-282 | commands run in order, each only after all before it succeeded. Success means every exit status is zero and every command was issued. A failure is the first failing command, and nothing after it is issued |
| Invoker.RunAllAppend | video_splitter/ffmpeg.py:200-282 | running a command list in two parts is running the first part, then the second part only if the first succeeded |
| Invoker.Collect | video_splitter/ffmpeg.py:94-96 | a comprehension whose elements may raise succeeds exactly when every element does. Its values are then in order. Otherwise it raises the first element's exception |
| Decoders.BlackGroups | video_splitter/ffmpeg.py:121-124 | the groups of a blackdetect match are three decimals: start, end and duration |
| Decoders.Midpoint | video_splitter/ffmpeg.py:124 | `float(start)` and `float(end)` both succeed. The midpoint is their half-sum and lies between them |
| Decoders.BlackMatches | video_splitter/ffmpeg.py:121-122 | every blackdetect match holds a start, end and duration decimal |
| Decoders.BlackMatchesScan | video_splitter/ffmpeg.py:121-122 | the blackdetect matches are the leftmost, non-overlapping ones, and there are none exactly when no position matches |
| Decoders.BlackMidpoints | video_splitter/ffmpeg.py:121-125 | there is one midpoint per match, in order, each `(float(start) + float(end)) / 2` of its match |
| Decoders.MidpointBetween | video_splitter/ffmpeg.py:124 | each midpoint lies between its interval's start and end |
| Decoders.IntegerTimesIgnored | video_splitter/ffmpeg.py:121-125 | a report in which no `black_start:` is followed by digits and a decimal point yields no black scene |
| Decoders.SameCapturesSameMidpoints | video_splitter/ffmpeg.py:121-125 | the midpoints depend only on the captured groups: two reports with the same captures give the same times |
| Decoders.PtsMatchesScan | video_splitter/ffmpeg.py:143 | the `pts_time:` matches are the leftmost, non-overlapping ones, and there are none exactly when no position matches |
| Decoders.SceneTimes | video_splitter/ffmpeg.py:143-144 | there is one time per `pts_time:` match, in order, each `float()` of its capture and non-negative |
| Decoders.PtsValue | video_splitter/ffmpeg.py:144 | `float()` of a `pts_time:` capture succeeds and is non-negative |
| Decoders.SizeMatchesScan | video_splitter/ffmpeg.py:62 | the size matches are the leftmost, non-overlapping ones, and the first is the leftmost in the text |
| Decoders.VideoSize | video_splitter/ffmpeg.py:62 | `findall(...)[0]` raises exactly when there is no size summary. Otherwise it is `float()` of the first summary's digits |
| Decoders.Bitrate | video_splitter/ffmpeg.py:63 | the bitrate exists exactly when the duration is non-zero (otherwise division by zero). It satisfies bitrate × duration = size × 8.192 and is non-negative for a positive duration |
| Decoders.BitrateExample | video_splitter/ffmpeg.py:63 | 1000 KiB over 10 s is exactly 819.2 kbit/s |
| Decoders.KeyLines | video_splitter/ffmpeg.py:94-96 | the kept rows are exactly the rows containing `K`, drawn from the listing |
| Decoders.KeyLinesAppend | video_splitter/ffmpeg.py:94-96 | filtering distributes over concatenation, so flagged rows keep their order |
| Decoders.SecondField | video_splitter/ffmpeg.py:95 | the second field is absent exactly when the row has no comma. When present, it holds no comma |
| Decoders.SplitSecond | video_splitter/ffmpeg.py:95 | `line.split(",")[1]` and the positional second field agree |
| Decoders.KeyframeField | video_splitter/ffmpeg.py:95 | three outcomes: a missing second field raises an index error, a malformed one a value error, and otherwise the value is `float()` of the field |
| Decoders.DecodeRows | video_splitter/ffmpeg.py:94-96 | the flagged rows decode exactly when each does. The values come in row order; otherwise the first row's exception is raised |
| Decoders.DecodeKeyframes | video_splitter/ffmpeg.py:94-96 | the comprehension succeeds exactly when every flagged row decodes, with one value per flagged row, in order |
| Decoders.FindKeyFrames | video_splitter/ffmpeg.py:94-102 | a successful result is never empty. "No keyframes" is raised exactly when no row is flagged. Otherwise the result is the comprehension's |
| Decoders.NoFlagNoKeyframes | video_splitter/ffmpeg.py:94-99 | a listing without the letter `K` raises "no keyframes" |
| Ffmpeg.MeasureBitrate | video_splitter/ffmpeg.py:49-63 | one measurement command. Success requires exit status zero, a size summary and a non-zero duration. The result is the rate of the first summary's size over the duration |
| Ffmpeg.GetVideoMetadata | video_splitter/ffmpeg.py:21-64 | the probes run in order: the duration probe only after the codec probe exits with status zero, the measurement only after the duration probe exits with status zero and its reply parses. A probe with a non-zero exit status is the last one issued and the run fails with `ToolFailed` for it. An unparsable duration fails with `NotANumber` after two probes, and a failed measurement's failure is the run's. Success requires all three to succeed and the duration reply to parse. Then the codec is the stripped first reply, the duration is `float()` of the second, and the bitrate comes from the third |
| Ffmpeg.MetadataBitrate | video_splitter/ffmpeg.py:62-64 | metadata that was read has a non-zero duration and a bitrate consistent with the measured size |
| Ffmpeg.IntervalAroundTime | video_splitter/ffmpeg.py:67-68 | the window extends half its width on either side of the time, with its lower end raised to zero. It contains the time when both are non-negative |
| Ffmpeg.PacketProbe | video_splitter/ffmpeg.py:73-79 | the probed interval's ends are the window's ends printed with `:.3f`: each is that end's rounded number of thousandths, within 0.0005 of it |
| Ffmpeg.FindKeyFramesAt | video_splitter/ffmpeg.py:71-102 | one packet probe. A non-zero exit status fails with `ToolFailed` for the probe. Otherwise the outcome is `find_key_frames`' decoding of the listing: "no keyframes" when no row is flagged, a decoding failure, or the keyframe times. Success requires exit status zero and decodable keyframes, and the list is never empty |
| Ffmpeg.DetectBlackScene | video_splitter/ffmpeg.py:105-125 | one blackdetect pass. It fails exactly on a non-zero exit status, with `ToolFailed` for that command; otherwise it yields the midpoints of the reported intervals |
| Ffmpeg.DetectSceneChange | video_splitter/ffmpeg.py:128-144 | one scene-select pass. It fails exactly on a non-zero exit status, with `ToolFailed` for that command; otherwise it yields the reported `pts_time:` values |
| Ffmpeg.LeastAbove | video_splitter/ffmpeg.py:194 | `min(kf for kf in ks if kf > start)`: absent exactly when no element exceeds `start`. Otherwise it is an element above `start`, no larger than any other such element |
| Ffmpeg.CutPlan | video_splitter/ffmpeg.py:152-282 | a keyframe start gives one stream copy of length `end - start`. Otherwise there is a re-encode from `start` to 0.000001 before the next keyframe (or `end` when no keyframe follows), a copy from there to `end`, and the concatenation. It fails in `min()` exactly when nothing lies above `start` |
| Ffmpeg.CutAfterProbes | video_splitter/ffmpeg.py:149-282 | the cut issues the metadata probes' commands first, and a successful cut read both the metadata and the keyframes. A failed metadata read ends the cut with its failure and nothing more issued; a failed keyframe probe after a successful metadata read ends it after the two probes' commands, with the keyframe probe's failure |
| Ffmpeg.CutAfterProbesSucceeds | video_splitter/ffmpeg.py:149-282 | once the probes have answered, the cut succeeds exactly when both succeeded, the plan exists and every command of the plan exits with status zero. A successful cut issued the probes, then the whole plan |
| Ffmpeg.SmartCut | video_splitter/ffmpeg.py:147-150 | the codec probe is the first command of every smart cut, and a successful cut read the metadata and the keyframes around `start`. A failed metadata read ends the cut with its failure and nothing more issued; a failed keyframe probe ends it after the three metadata probes and the packet probe, with the packet probe's failure |
| Ffmpeg.SmartCutSucceeds | video_splitter/ffmpeg.py:147-282 | the smart cut succeeds exactly when both probes succeed, the plan exists and every command of it exits with status zero. It then issued the three metadata probes, the packet probe around `start`, and the whole plan |
| Ffmpeg.OffKeyframeOrder | video_splitter/ffmpeg.py:186-282 | a successful cut from a non-keyframe start issues seven commands in order: the probes, a re-encode from `start` to 0.000001 before the next keyframe (or `end`), a copy from that point to `end`, and the concatenation into the output |
| Ffmpeg.KeyframeCutCopies | video_splitter/ffmpeg.py:152-184 | after the probes, a keyframe start issues exactly one stream copy of length `end - start`, whatever its exit status |
| Ffmpeg.KeyframeStartCopies | video_splitter/ffmpeg.py:147-184 | a keyframe start issues exactly the three metadata probes, the packet probe around `start`, and one stream copy |
| Ffmpeg.KeyframeStartNeverReencodes | video_splitter/ffmpeg.py:152-184 | a cut from a keyframe issues no re-encode, no range copy and no concatenation |
| Ffmpeg.OffKeyframeCutReencodes | video_splitter/ffmpeg.py:186-230 | for a non-keyframe start and a non-empty cut, the first command after the probes re-encodes from `start` to 0.000001 before a point in `(start, end]` |
| Ffmpeg.OffKeyframeReencodes | video_splitter/ffmpeg.py:147-230 | the same for the whole smart cut: its fifth command is that re-encode |
| Ffmpeg.EmptyCutFails | video_splitter/ffmpeg.py:191-194 | for a non-keyframe start with no keyframe after it and `end <= start`, the cut fails in `min()` before any cut command |
| Paths.LastIndexIn | video_splitter/main.py:32 | the index of the last character from a set, or -1 when there is none |
| Paths.LastIndexUnique | video_splitter/main.py:32 | any index with those properties is the one returned |
| Paths.SplitExt | video_splitter/main.py:32 | base + ext is the path. A non-empty ext is a dot followed by no dot and no separator, with a non-dot before it in the last component. An empty ext means every dot in the last component is preceded only by dots |
| Paths.SplitExtExamples | video_splitter/main.py:32 | `movie.final.mp4` splits at its last dot. A leading dot alone starts no extension. A dot in a directory name is not an extension |
| Paths.SeparatorExamples | video_splitter/main.py:32 | a backslash separates components on Windows only: `clips.d\take` has no extension there, but `.d\take` on POSIX |
| Paths.PartName | video_splitter/main.py:32-34 | the part name is the base, `.part`, the tag, then the extension, five characters plus the tag longer than the path |
| Paths.PartNamesDistinct | video_splitter/main.py:32-34 | the two part names differ from each other and from the input path |
| Paths.PartNameKeepsExtension | video_splitter/main.py:32-34 | for an input with a non-empty extension, splitting a part name again gives the input's base with the part suffix, and the same extension |
| Paths.PartNameWithoutExtension | video_splitter/main.py:32-34 | an input without an extension gets none in its part names: `video` becomes `video.part1`, whose extension is then the part suffix `.part1` |
| Workflow.Distance | video_splitter/main.py:28 | `abs(t - middle)`: non-negative, one of the two differences |
| Workflow.NearestIndex | video_splitter/main.py:28 | `min` by key picks a position nearest the middle, every earlier element being strictly farther |
| Workflow.FirstNearestUnique | video_splitter/main.py:28 | only one position has that property, so the choice is determined and ties go to the earliest |
| Workflow.Nearest | video_splitter/main.py:28 | `min` raises exactly on no candidates. Otherwise it yields the first candidate nearest the middle |
| Workflow.NearestExamples | video_splitter/main.py:28 | a lone candidate is chosen. Of two candidates equally far from the middle, the earlier is chosen |
| Workflow.Halves | video_splitter/main.py:31-45 | the halves are `[0, t]` into the `1` part name and `[t, duration]` into the `2` part name, and the two outputs differ |
| Workflow.CutHalves | video_splitter/main.py:39-45 | the second cut is issued only after the first succeeded, and the split succeeds exactly when both cuts do |
| Workflow.SplitAtTime | video_splitter/main.py:31-45 | the split at `t` issues exactly the two cuts, succeeds exactly when they do, and then reports `t` with its two halves. A successful split issued the whole cut of `[0, t]` into the `1` part, then the whole cut of `[t, duration]` into the `2` part |
| Workflow.SplitAtNearest | video_splitter/main.py:23-24 | what follows a non-empty detection starts with the codec probe of `get_video_metadata`. A failed metadata read ends the run with its failure and nothing more issued |
| Workflow.SplitAtNearestSucceeds | video_splitter/main.py:23-45 | once the metadata is read, the run is the metadata probes followed by the split at the first time nearest to half the duration, whatever that split's outcome. So it succeeds exactly when the metadata read and both cuts there succeed |
| Workflow.SplitStages | video_splitter/main.py:23-45 | a successful split read the metadata first, then split at the time `min` picks for half the duration, with that split's commands and outcome |
| Workflow.ProcessVideo | video_splitter/main.py:6-47 | blackdetect comes first. A failed detection ends the run with that failure. The run ends cleanly with no black scene exactly when the detection succeeds with no midpoints, and then nothing else is issued. After black scenes were found, the run is the detection followed by the split, whether the split succeeds or fails |
| Workflow.SplitNearest | video_splitter/main.py:24-28 | the split time is a black-scene midpoint, the first nearest to half the duration |
| Workflow.SplitOrder | video_splitter/main.py:24-45 | a split issues the metadata probes, the whole cut of `[0, t]`, then the whole cut of `[t, duration]` |
| Legacy.DetectBlackFrames | video_splitter/utils.py:24-54 | one blackdetect pass, without `-hide_banner`, that never fails. It yields one half-sum midpoint per reported interval, in order, whatever the exit status |
| Legacy.BlackFramesAgree | video_splitter/utils.py:31-54 | where the banner leaves the captured intervals unchanged, it yields the newer detection's times whenever the newer one succeeds. The newer one fails exactly on a non-zero exit status |
| Legacy.DetectSceneFrames | video_splitter/utils.py:57-72 | one scene-select pass at threshold 0.3 that never fails. It yields `float()` of every `pts_time:` capture, in order |
| Legacy.SceneFramesAgree | video_splitter/utils.py:64-72 | it is the newer scene detection at its default threshold, except that it does not fail on a non-zero exit status |
| Legacy.SplitVideoFast | video_splitter/utils.py:75-109 | the head cut is issued first, and the tail only when the head succeeded. Both use the same time, the requested one printed with `:.2f`: its rounded number of hundredths, within 0.005 of it. Success means both exit statuses are zero |
| Legacy.SplitAtExactTime | video_splitter/utils.py:87-100 | a split time with at most two decimals reaches the head command unchanged |

## Left out

- Processes and files: running the media tool, the video data, and writing
  output files are outside the model. The tool is a parameter mapping each
  command to an exit status and its text.
- Repeated commands: `process_video` reads the metadata three times, once
  itself and once inside each of the two smart cuts. Because the tool is a
  function of the command, the model assumes that every repetition of a
  command gets the same reply; a tool whose answer changes between calls is
  not modelled.
- Messages: printing and progress messages are not modelled.
- Temporary directory: the smart cut's temporary directory, its file paths
  and the concat file list are not modelled. The three re-encode-path
  commands name only what varies between calls.
- Command arguments: each command's fixed arguments, and the input path, are
  implicit in its `Command` constructor.
- Legacy streams: `utils.py` decodes only standard error, while the newer
  functions decode standard output and error merged. The model gives each
  command one reply text. The legacy black detection's command, which leaves
  the banner on, is the separate `BannerBlackDetect` command.
- Legacy.BlackFramesAgree: what the banner adds to the tool's text is not
  modelled, so the lemma takes as its precondition that both texts yield the
  same captured intervals.
- Command-line entry point: `__main__.py`, with its prompt to pick among
  several black scenes and its file-existence check, is not part of this
  model.
- Older workflow: the commented-out workflow in `main.py` (lines 49-94) is
  not part of this model.
- `get_video_duration` (`utils.py`, lines 8-21) is not part of this model:
  nothing in the core calls it.
- Floating point: times, durations and rates are exact reals. IEEE rounding
  in `(start + end) / 2`, `end - start`, `next_keyframe - 0.000001` and the
  bitrate is not modelled, nor is `str()` of a float in the command lines.
- `\d` and `\s`: `\d` matches ASCII digits only, and `\s` is the set
  `str.isspace` accepts. Python's `\d` also accepts other Unicode decimal
  digits.
- Text.ParseFloat: reads only signed positional decimals (`12`, `1.5`, `.5`,
  `5.`) with surrounding white space. Exponents, digit-group underscores,
  `inf` and `nan`, which Python's `float()` also accepts, are rejected. So
  are non-ASCII decimal digits (`"٣.٥"`), which `float()` reads as their
  ASCII counterparts. The surrounding white space is the `str.isspace` set,
  as for `str.strip`. Python's `float()` does not skip the ASCII separators
  U+001C to U+001F, so for example `"5\x1f"` is read as 5 here but raises
  in Python. The core only feeds it captured decimals and ffprobe's
  duration reply.
- Text.ParseFloatExact: states its characterisation for the `ParseFloat`
  above, with the differences from Python's `float()` listed there.
- Invoker.Invoke: the tool failure names the failing command but not the
  text it printed.

=== FILE: decoders.dfy ===
/** The decoders that turn a tool's diagnostic text into numbers: blackdetect
    intervals into midpoints, showinfo `pts_time:` tokens into timestamps,
    the `video:<n>KiB` summary into a size and a bitrate, and ffprobe's CSV
    packet rows into keyframe timestamps. Each reads a captured output as a
    plain string; none runs anything. */
module Decoders {
  import opened Options
  import opened Text
  import opened Patterns
  import opened Invoker

  // ---------------------------------------------------------------------
  // blackdetect

  /** The groups of one blackdetect match: start, end and duration, each a decimal. */
  ghost predicate BlackTriple(g: seq<string>) {
    |g| == 3 && DecimalSyntax(g[0]) && DecimalSyntax(g[1]) && DecimalSyntax(g[2])
  }

  lemma BlackGroups(g: seq<string>)
    requires GroupsFit(BlackPattern, g)
    ensures BlackTriple(g)
  {
    CapturingOfPatterns();
    assert Fits(Decimal, g[0]) && Fits(Decimal, g[1]) && Fits(Decimal, g[2]);
  }

  /** `(float(start) + float(end)) / 2` for one interval; it lies between the two ends. */
  function Midpoint(g: seq<string>): (m: real)
    requires BlackTriple(g)
    ensures ParseFloat(g[0]).Some? && ParseFloat(g[1]).Some?
    ensures m == (ParseFloat(g[0]).value + ParseFloat(g[1]).value) / 2.0
    ensures var a, b := ParseFloat(g[0]).value, ParseFloat(g[1]).value;
      (a <= m <= b) || (b <= m <= a)
  {
    ParseDecimal(g[0]);
    ParseDecimal(g[1]);
    (DecimalValue(g[0]) + DecimalValue(g[1])) / 2.0
  }

  /** `re.findall` of the blackdetect pattern over `text`; each match holds
      a start, an end and a duration. */
  function BlackMatches(text: string): (ms: seq<Found>)
    ensures forall k :: 0 <= k < |ms| ==> BlackTriple(ms[k].groups)
  {
    PatternsAreWellBehaved();
    var ms := FindAll(BlackPattern, text);
    FoundGroupsFit(BlackPattern, text, 0, ms);
    forall k | 0 <= k < |ms|
      ensures BlackTriple(ms[k].groups)
    {
      BlackGroups(ms[k].groups);
    }
    ms
  }

  /** The blackdetect matches are the leftmost non-overlapping ones, and
      there are none exactly when no position of `text` holds one. */
  lemma BlackMatchesScan(text: string)
    ensures Scanned(BlackPattern, text, 0, BlackMatches(text))
    ensures BlackMatches(text) == [] <==> forall j :: 0 <= j <= |text| ==> MatchFrom(BlackPattern, text, j).None?
  {
    PatternsAreWellBehaved();
    FindAllEmpty(BlackPattern, text);
  }

  /** The midpoints of every blackdetect interval in `text`, in the order
      `re.findall` reports them; nothing when no position matches. */
  function BlackMidpoints(text: string): (r: seq<real>)
    ensures |r| == |BlackMatches(text)|
    ensures forall k :: 0 <= k < |r| ==>
      var g := BlackMatches(text)[k].groups;
      ParseFloat(g[0]).Some? && ParseFloat(g[1]).Some? &&
      r[k] == (ParseFloat(g[0]).value + ParseFloat(g[1]).value) / 2.0
  {
    var ms := BlackMatches(text);
    var r := seq(|ms|, k requires 0 <= k < |ms| => Midpoint(ms[k].groups));
    assert forall k :: 0 <= k < |r| ==> r[k] == Midpoint(ms[k].groups);
    r
  }

  /** The midpoints depend on the captured groups alone: two texts whose
      blackdetect captures agree give the same times. */
  lemma SameCapturesSameMidpoints(a: string, b: string)
    requires Captures(BlackMatches(a)) == Captures(BlackMatches(b))
    ensures BlackMidpoints(a) == BlackMidpoints(b)
  {
    var ga := Captures(BlackMatches(a));
    assert forall k :: 0 <= k < |ga| ==> BlackMatches(a)[k].groups == BlackMatches(b)[k].groups;
  }

  /** Each midpoint lies between the start and the end of its interval. */
  lemma MidpointBetween(text: string, k: nat)
    requires k < |BlackMidpoints(text)|
    ensures var g := BlackMatches(text)[k].groups;
      var a, b := ParseFloat(g[0]).value, ParseFloat(g[1]).value;
      a <= b ==> a <= BlackMidpoints(text)[k] <= b
  {
    var m := Midpoint(BlackMatches(text)[k].groups);
  }

  /** Timestamps written as integers, `black_start:5 ` say, are not read at
      all: where every `black_start:` is followed by digits and then no point,
      there are no black intervals, whatever else the text holds. */
  lemma IntegerTimesIgnored(text: string)
    requires forall j :: 0 <= j <= |text| && LiteralAt(text, j, "black_start:") ==>
      !PointAfterDigits(text, j + |"black_start:"|)
    ensures BlackMidpoints(text) == []
  {
    PatternsAreWellBehaved();
    NoPointNoMatch(BlackPattern, text);
    assert BlackMatches(text) == FindAll(BlackPattern, text);
  }

  // ---------------------------------------------------------------------
  // showinfo

  /** `re.findall` of the `pts_time:` pattern over `text`. */
  function PtsMatches(text: string): (ms: seq<Found>)
    ensures forall k :: 0 <= k < |ms| ==> GroupsFit(PtsPattern, ms[k].groups)
  {
    PatternsAreWellBehaved();
    var ms := FindAll(PtsPattern, text);
    FoundGroupsFit(PtsPattern, text, 0, ms);
    ms
  }

  /** The `pts_time:` matches are the leftmost non-overlapping ones, and
      there are none exactly when no position of `text` holds one. */
  lemma PtsMatchesScan(text: string)
    ensures Scanned(PtsPattern, text, 0, PtsMatches(text))
    ensures PtsMatches(text) == [] <==> forall j :: 0 <= j <= |text| ==> MatchFrom(PtsPattern, text, j).None?
  {
    PatternsAreWellBehaved();
    FindAllEmpty(PtsPattern, text);
  }

  /** `float()` of every `pts_time:` decimal in `text`, in order; nothing when
      no position matches. */
  function SceneTimes(text: string): (r: seq<real>)
    ensures |r| == |PtsMatches(text)|
    ensures forall k :: 0 <= k < |r| ==>
      var g := PtsMatches(text)[k].groups;
      |g| == 1 && ParseFloat(g[0]) == Some(r[k]) && r[k] >= 0.0
  {
    var ms := PtsMatches(text);
    var r := seq(|ms|, k requires 0 <= k < |ms| => PtsValue(ms[k].groups));
    assert |r| == |ms|;
    r
  }

  function PtsValue(g: seq<string>): (v: real)
    requires GroupsFit(PtsPattern, g)
    ensures |g| == 1 && ParseFloat(g[0]) == Some(v) && v >= 0.0
  {
    CapturingOfPatterns();
    assert Fits(Decimal, g[0]);
    ParseDecimal(g[0]);
    DecimalValue(g[0])
  }

  // ---------------------------------------------------------------------
  // video size and bitrate

  /** `re.findall` of the `video:<n>KiB` pattern over `text`. */
  function SizeMatches(text: string): (ms: seq<Found>)
    ensures forall k :: 0 <= k < |ms| ==> GroupsFit(SizePattern, ms[k].groups)
  {
    PatternsAreWellBehaved();
    var ms := FindAll(SizePattern, text);
    FoundGroupsFit(SizePattern, text, 0, ms);
    ms
  }

  /** The size summaries found are the leftmost non-overlapping ones: the
      first is the leftmost position holding a match, and there is none
      exactly when no position of `text` holds one. */
  lemma SizeMatchesScan(text: string)
    ensures Scanned(SizePattern, text, 0, SizeMatches(text))
    ensures SizeMatches(text) == [] <==> forall j :: 0 <= j <= |text| ==> MatchFrom(SizePattern, text, j).None?
    ensures SizeMatches(text) != [] ==>
      && MatchFrom(SizePattern, text, SizeMatches(text)[0].start).Some?
      && forall j :: 0 <= j < SizeMatches(text)[0].start ==> MatchFrom(SizePattern, text, j).None?
  {
    PatternsAreWellBehaved();
    FindAllEmpty(SizePattern, text);
    var ms := SizeMatches(text);
    if ms != [] {
      FirstIsLeftmost(SizePattern, text, 0, ms);
    }
  }

  /** The number of the first `video:<n>KiB` summary in `text`, read by
      `float()`; failing when there is none. */
  function VideoSize(text: string): (r: Result<nat>)
    ensures r.Err? <==> SizeMatches(text) == []
    ensures r.Err? ==> r.failure == NoMatch
    ensures r.Ok? ==>
      |SizeMatches(text)[0].groups| == 1 &&
      ParseFloat(SizeMatches(text)[0].groups[0]) == Some(r.value as real)
  {
    var ms := SizeMatches(text);
    if ms == [] then Err(NoMatch)
    else
      CapturingOfPatterns();
      var g := ms[0].groups;
      assert Fits(Number, g[0]);
      ParseDigits(g[0]);
      Ok(DigitsValue(g[0]))
  }

  /** The factor turning KiB per second into kbit/s. */
  const KbitPerKiB: real := 8.192

  /** `bitrate` kbit/s over `duration` seconds makes `size` KiB. */
  predicate RateOf(bitrate: real, size: nat, duration: real) {
    bitrate * duration == size as real * KbitPerKiB
  }

  /** The kilobit rate `size / duration * 8.192` of a stream of `size` KiB
      lasting `duration` seconds. */
  function Bitrate(size: nat, duration: real): (r: Result<real>)
    ensures r.Ok? <==> duration != 0.0
    ensures r.Err? ==> r.failure == DivisionByZero
    ensures r.Ok? ==> RateOf(r.value, size, duration)
    ensures r.Ok? && duration > 0.0 ==> r.value >= 0.0
  {
    if duration == 0.0 then Err(DivisionByZero)
    else Ok(size as real / duration * KbitPerKiB)
  }

  /** 1000 KiB over ten seconds is 819.2 kbit/s. */
  lemma BitrateExample()
    ensures Bitrate(1000, 10.0) == Ok(819.2)
  {
  }

  // ---------------------------------------------------------------------
  // ffprobe packet rows

  /** `"K" in line`: the row carries the keyframe flag. */
  predicate Flagged(line: string) {
    'K' in line
  }

  /** The flagged rows, in their original order. */
  function KeyLines(lines: seq<string>): (ks: seq<string>)
    ensures forall k :: 0 <= k < |ks| ==> Flagged(ks[k]) && ks[k] in lines
    ensures forall l :: l in lines && Flagged(l) ==> l in ks
    ensures |ks| <= |lines|
    decreases |lines|
  {
    if lines == [] then []
    else
      var rest := KeyLines(lines[1..]);
      assert forall l :: l in lines ==> l == lines[0] || l in lines[1..];
      if Flagged(lines[0]) then [lines[0]] + rest else rest
  }

  /** Filtering distributes over concatenation, so the flagged rows keep their order. */
  lemma {:induction false} KeyLinesAppend(a: seq<string>, b: seq<string>)
    ensures KeyLines(a + b) == KeyLines(a) + KeyLines(b)
    decreases |a|
  {
    if a == [] {
      assert a + b == b;
    } else {
      assert (a + b)[1..] == a[1..] + b;
      KeyLinesAppend(a[1..], b);
    }
  }

  /** The second comma-separated field of `line`, read by position: the text
      after the first comma, up to the next comma or the end of the row. */
  function SecondField(line: string): (b: Option<string>)
    ensures b.None? <==> ',' !in line
    ensures b.Some? ==> ',' !in b.value
  {
    var i := IndexOf(line, ',');
    if i == |line| then
      assert line[..i] == line;
      None
    else
      var rest := line[i + 1..];
      Some(rest[..IndexOf(rest, ',')])
  }

  /** `line.split(",")[1]`, then `float()` of it. */
  function KeyframeField(line: string): (r: Result<real>)
    ensures r == Err(MissingField) <==> SecondField(line).None?
    ensures r.Ok? ==> ParseFloat(SecondField(line).value) == Some(r.value)
    ensures r == Err(NotANumber) <==> SecondField(line).Some? && ParseFloat(SecondField(line).value).None?
    ensures r.Ok? || r == Err(MissingField) || r == Err(NotANumber)
  {
    var fields := Split(line, ',');
    if |fields| < 2 then Err(MissingField)
    else
      SplitSecond(line);
      match ParseFloat(fields[1])
      case None => Err(NotANumber)
      case Some(v) => Ok(v)
  }

  /** `str.split` and the positional reading agree on the second field. */
  lemma SplitSecond(line: string)
    requires ',' in line
    ensures |Split(line, ',')| >= 2 && SecondField(line) == Some(Split(line, ',')[1])
  {
    var i := IndexOf(line, ',');
    var rest := line[i + 1..];
    assert Split(line, ',') == [line[..i]] + Split(rest, ',');
    SplitHead(rest, ',');
  }

  lemma SplitHead(s: string, sep: char)
    ensures Split(s, sep)[0] == s[..IndexOf(s, sep)]
  {
  }

  /** The second field of every row, in order, or the exception the first
      unreadable row raises. */
  function DecodeRows(ks: seq<string>): (r: Result<seq<real>>)
    ensures r.Ok? <==> forall k :: 0 <= k < |ks| ==> KeyframeField(ks[k]).Ok?
    ensures r.Ok? ==> |r.value| == |ks| && forall k :: 0 <= k < |ks| ==> KeyframeField(ks[k]) == Ok(r.value[k])
    ensures r.Err? ==>
      exists k :: 0 <= k < |ks| && KeyframeField(ks[k]) == Err(r.failure) &&
        forall j :: 0 <= j < k ==> KeyframeField(ks[j]).Ok?
  {
    var rs := seq(|ks|, k requires 0 <= k < |ks| => KeyframeField(ks[k]));
    assert forall k :: 0 <= k < |ks| ==> rs[k] == KeyframeField(ks[k]);
    Collect(rs)
  }

  /** The list comprehension over the rows: the rows flagged `K`, read in order. */
  function DecodeKeyframes(lines: seq<string>): (r: Result<seq<real>>)
    ensures r.Ok? ==> |r.value| == |KeyLines(lines)|
    ensures r.Ok? ==> forall k :: 0 <= k < |r.value| ==> KeyframeField(KeyLines(lines)[k]) == Ok(r.value[k])
    ensures r.Ok? <==> forall l :: l in lines && Flagged(l) ==> KeyframeField(l).Ok?
  {
    var ks := KeyLines(lines);
    DecodeRows(ks)
  }

  /** `find_key_frames` after the tool has answered: the decoded rows of
      `output`, failing when no row is flagged. */
  function FindKeyFrames(output: string): (r: Result<seq<real>>)
    ensures r.Ok? ==> r.value != []
    ensures r == Err(NoKeyframes) <==> KeyLines(SplitLines(output)) == []
    ensures r.Ok? ==> DecodeKeyframes(SplitLines(output)) == r
    ensures r.Err? && r.failure != NoKeyframes ==> DecodeKeyframes(SplitLines(output)) == r
  {
    match DecodeKeyframes(SplitLines(output))
    case Err(f) =>
      assert f == MissingField || f == NotANumber;
      Err(f)
    case Ok(vs) => if vs == [] then Err(NoKeyframes) else Ok(vs)
  }

  /** An output without the letter `K` has no keyframe. */
  lemma NoFlagNoKeyframes(output: string)
    requires 'K' !in output
    ensures FindKeyFrames(output) == Err(NoKeyframes)
  {
    var lines := SplitLines(output);
    if KeyLines(lines) != [] {
      var l := KeyLines(lines)[0];
      var k :| 0 <= k < |lines| && lines[k] == l;
      InConcat(lines, k, 'K');
      InWithoutBreaks(output, 'K');
    }
  }

  lemma {:induction false} InConcat(lines: seq<string>, k: nat, c: char)
    requires k < |lines| && c in lines[k]
    ensures c in Concat(lines)
    decreases |lines|
  {
    if k > 0 {
      InConcat(lines[1..], k - 1, c);
    }
  }

  lemma {:induction false} InWithoutBreaks(s: string, c: char)
    requires c in WithoutBreaks(s)
    ensures c in s
    decreases |s|
  {
    if s != [] && c != s[0] {
      assert c in WithoutBreaks(s[1..]);
      InWithoutBreaks(s[1..], c);
    }
  }
}

=== FILE: ffmpeg.dfy ===
/** The media-tool front end of the splitter: reading a video's codec,
    duration and bitrate, finding keyframes near a time, detecting black
    scenes and scene changes, and the smart cut that copies from a keyframe
    or re-encodes up to the next one. */
module Ffmpeg {
  import opened Options
  import opened Text
  import opened Invoker
  import opened Decoders

  /** Seconds of video probed for keyframes around a time, by default. */
  const KeyframeWindow: real := 10.0
  /** How far before the next keyframe the re-encoded piece stops. */
  const EndNudge: real := 0.000001

  const DefaultMinSceneChange: real := 0.3

  datatype Metadata = Metadata(codec: string, duration: real, bitrate: real)

  /** The three invocations that gather a video's metadata, in order. */
  const MetadataProbes: seq<Command> := [ProbeCodec, ProbeDuration, MeasureVideo]

  // ---------------------------------------------------------------------
  // metadata

  /** The bitrate from the size summary of the third metadata invocation:
      the first `video:<n>KiB` match, over `duration`, in kbit/s. */
  function MeasureBitrate(tool: Command -> Reply, duration: real): (r: Run<real>)
    ensures r.issued == [MeasureVideo]
    ensures r.outcome.Ok? <==>
      tool(MeasureVideo).exitCode == 0 && VideoSize(tool(MeasureVideo).output).Ok? && duration != 0.0
    ensures r.outcome.Ok? ==> RateOf(r.outcome.value, VideoSize(tool(MeasureVideo).output).value, duration)
    ensures r.outcome.Err? && r.outcome.failure.ToolFailed? ==> tool(MeasureVideo).exitCode != 0
  {
    match Invoke(tool, MeasureVideo)
    case Err(f) => Run([MeasureVideo], Err(f))
    case Ok(sizeText) =>
      match VideoSize(sizeText)
      case Err(f) => Run([MeasureVideo], Err(f))
      case Ok(size) =>
        match Bitrate(size, duration)
        case Err(f) => Run([MeasureVideo], Err(f))
        case Ok(bitrate) =>
          assert VideoSize(tool(MeasureVideo).output) == Ok(size);
          Run([MeasureVideo], Ok(bitrate))
  }

  /** Codec name, duration and bitrate, from three invocations that stop at the
      first failure: the codec is the trimmed first reply, the duration
      `float()` of the second, and the bitrate comes from the third. */
  function GetVideoMetadata(tool: Command -> Reply): (r: Run<Metadata>)
    ensures 0 < |r.issued| <= 3 && r.issued == MetadataProbes[..|r.issued|]
    ensures r.outcome.Ok? ==> r.issued == MetadataProbes
    ensures r.outcome.Ok? <==>
      && tool(ProbeCodec).exitCode == 0
      && tool(ProbeDuration).exitCode == 0
      && ParseFloat(tool(ProbeDuration).output).Some?
      && MeasureBitrate(tool, ParseFloat(tool(ProbeDuration).output).value).outcome.Ok?
    ensures r.outcome.Ok? ==>
      && r.outcome.value.codec == Strip(tool(ProbeCodec).output)
      && ParseFloat(tool(ProbeDuration).output) == Some(r.outcome.value.duration)
      && MeasureBitrate(tool, r.outcome.value.duration).outcome == Ok(r.outcome.value.bitrate)
    ensures r.outcome.Err? && r.outcome.failure.ToolFailed? ==>
      r.outcome.failure.command == r.issued[|r.issued| - 1] &&
      tool(r.issued[|r.issued| - 1]).exitCode != 0
    // a probe runs only after the ones before it exited with status zero,
    // and a failing probe ends the run with its own failure
    ensures |r.issued| > 1 ==> tool(ProbeCodec).exitCode == 0
    ensures |r.issued| > 2 ==> tool(ProbeDuration).exitCode == 0 && ParseFloat(tool(ProbeDuration).output).Some?
    ensures tool(r.issued[|r.issued| - 1]).exitCode != 0 ==>
      r.outcome == Err(ToolFailed(r.issued[|r.issued| - 1]))
    ensures (tool(ProbeCodec).exitCode == 0 && tool(ProbeDuration).exitCode == 0 &&
             ParseFloat(tool(ProbeDuration).output).None?) ==>
        r == Run([ProbeCodec, ProbeDuration], Err(NotANumber))
    ensures (tool(ProbeCodec).exitCode == 0 && tool(ProbeDuration).exitCode == 0 &&
             ParseFloat(tool(ProbeDuration).output).Some?) ==>
        var measured := MeasureBitrate(tool, ParseFloat(tool(ProbeDuration).output).value);
        r.issued == MetadataProbes &&
        (measured.outcome.Err? ==> r.outcome == Err(measured.outcome.failure))
  {
    match Invoke(tool, ProbeCodec)
    case Err(f) => Run([ProbeCodec], Err(f))
    case Ok(codecText) =>
      match Invoke(tool, ProbeDuration)
      case Err(f) => Run([ProbeCodec, ProbeDuration], Err(f))
      case Ok(durationText) =>
        match ParseFloat(durationText)
        case None => Run([ProbeCodec, ProbeDuration], Err(NotANumber))
        case Some(duration) =>
          var measured := MeasureBitrate(tool, duration);
          match measured.outcome
          case Err(f) => Run(MetadataProbes, Err(f))
          case Ok(bitrate) => Run(MetadataProbes, Ok(Metadata(Strip(codecText), duration, bitrate)))
  }

  /** Metadata that was read has a non-zero duration, and its bitrate carries
      the measured size over that duration. */
  lemma MetadataBitrate(tool: Command -> Reply)
    requires GetVideoMetadata(tool).outcome.Ok?
    ensures var m := GetVideoMetadata(tool).outcome.value;
      m.duration != 0.0 &&
      RateOf(m.bitrate, VideoSize(tool(MeasureVideo).output).value, m.duration)
  {
  }

  // ---------------------------------------------------------------------
  // keyframes

  /** The window `[time - window/2, time + window/2]`, its lower end raised to zero. */
  function IntervalAroundTime(time: real, window: real): (r: (real, real))
    ensures r.0 >= 0.0 && r.0 >= time - window / 2.0
    ensures r.0 == 0.0 || r.0 == time - window / 2.0
    ensures r.1 - time == window / 2.0
    ensures time >= 0.0 && window >= 0.0 ==> r.0 <= time <= r.1
  {
    (if time - window / 2.0 >= 0.0 then time - window / 2.0 else 0.0, time + window / 2.0)
  }

  /** The packet probe for the window around `point`, its ends printed to
      three places. */
  function PacketProbe(point: real, window: real): (c: Command)
    ensures c.ProbePackets?
    ensures var (lo, hi) := IntervalAroundTime(point, window);
      c.from * 1000.0 == Units(lo, 3) as real && c.to * 1000.0 == Units(hi, 3) as real
    ensures var (lo, hi) := IntervalAroundTime(point, window);
      -0.0005 <= c.from - lo <= 0.0005 && -0.0005 <= c.to - hi <= 0.0005
  {
    var (lo, hi) := IntervalAroundTime(point, window);
    FixedThree(lo);
    FixedThree(hi);
    ProbePackets(Fixed(lo, 3), Fixed(hi, 3))
  }

  /** The keyframe times the packet probe around `point` reports: one probe,
      then the flagged rows decoded; never an empty list. */
  function FindKeyFramesAt(tool: Command -> Reply, point: real, window: real): (r: Run<seq<real>>)
    ensures r.issued == [PacketProbe(point, window)]
    ensures r.outcome.Ok? ==> r.outcome.value != []
    ensures r.outcome.Ok? <==>
      tool(PacketProbe(point, window)).exitCode == 0 &&
      FindKeyFrames(tool(PacketProbe(point, window)).output).Ok?
    ensures tool(PacketProbe(point, window)).exitCode == 0 ==>
      r.outcome == FindKeyFrames(tool(PacketProbe(point, window)).output)
    ensures tool(PacketProbe(point, window)).exitCode != 0 ==>
      r.outcome == Err(ToolFailed(PacketProbe(point, window)))
  {
    var c := PacketProbe(point, window);
    match Invoke(tool, c)
    case Err(f) => Run([c], Err(f))
    case Ok(output) => Run([c], FindKeyFrames(output))
  }

  // ---------------------------------------------------------------------
  // split-point candidates

  /** The midpoints of the black intervals the blackdetect filter reports. */
  function DetectBlackScene(tool: Command -> Reply, minDuration: real, pictureTh: real, pixelTh: real): (r: Run<seq<real>>)
    ensures r.issued == [BlackDetect(minDuration, pictureTh, pixelTh)]
    ensures var reply := tool(BlackDetect(minDuration, pictureTh, pixelTh));
      r.outcome.Ok? <==> reply.exitCode == 0
    ensures r.outcome.Ok? ==>
      r.outcome.value == BlackMidpoints(tool(BlackDetect(minDuration, pictureTh, pixelTh)).output)
    ensures tool(BlackDetect(minDuration, pictureTh, pixelTh)).exitCode != 0 ==>
      r.outcome == Err(ToolFailed(BlackDetect(minDuration, pictureTh, pixelTh)))
  {
    var c := BlackDetect(minDuration, pictureTh, pixelTh);
    match Invoke(tool, c)
    case Err(f) => Run([c], Err(f))
    case Ok(output) => Run([c], Ok(BlackMidpoints(output)))
  }

  /** The times of the frames whose scene score exceeds `minChange`. */
  function DetectSceneChange(tool: Command -> Reply, minChange: real): (r: Run<seq<real>>)
    ensures r.issued == [SceneSelect(minChange)]
    ensures r.outcome.Ok? <==> tool(SceneSelect(minChange)).exitCode == 0
    ensures r.outcome.Ok? ==> r.outcome.value == SceneTimes(tool(SceneSelect(minChange)).output)
    ensures tool(SceneSelect(minChange)).exitCode != 0 ==> r.outcome == Err(ToolFailed(SceneSelect(minChange)))
  {
    var c := SceneSelect(minChange);
    match Invoke(tool, c)
    case Err(f) => Run([c], Err(f))
    case Ok(output) => Run([c], Ok(SceneTimes(output)))
  }

  // ---------------------------------------------------------------------
  // smart cut

  /** `min(kf for kf in ks if kf > start)`: the least element above `start`,
      or nothing when every element is at most `start`. */
  function LeastAbove(ks: seq<real>, start: real): (r: Option<real>)
    ensures r.None? <==> forall k :: 0 <= k < |ks| ==> ks[k] <= start
    ensures r.Some? ==> r.value in ks && r.value > start
    ensures r.Some? ==> forall k :: 0 <= k < |ks| && ks[k] > start ==> r.value <= ks[k]
    decreases |ks|
  {
    if ks == [] then None
    else
      var rest := LeastAbove(ks[1..], start);
      assert forall k :: 1 <= k < |ks| ==> ks[k] == ks[1..][k - 1];
      if ks[0] <= start then rest
      else match rest
        case None => Some(ks[0])
        case Some(m) => Some(if ks[0] <= m then ks[0] else m)
  }

  /** The cut commands for `[start, end]` given the keyframe times: a stream
      copy when `start` is a keyframe; otherwise a re-encode up to just
      before the next keyframe (the end of the cut standing in when there is
      none), a copy from that keyframe to the end, and the concatenation. */
  function CutPlan(start: real, end: real, keyframes: seq<real>, codec: string, bitrate: real, output: string): (r: Result<seq<Command>>)
    ensures start in keyframes ==> r == Ok([CopyCut(start, end - start, output)])
    ensures r.Err? <==> start !in keyframes && end <= start && forall k :: 0 <= k < |keyframes| ==> keyframes[k] <= start
    ensures r.Err? ==> r.failure == EmptyMin
    ensures start !in keyframes && r.Ok? ==>
      var plan := r.value;
      && |plan| == 3
      && plan[0].Reencode? && plan[1].CopyRange? && plan[2] == ConcatPieces(output)
      && plan[0].from == start && plan[0].codec == codec && plan[0].bitrate == bitrate
      && plan[1].to == end
      && plan[0].to == plan[1].from - EndNudge
      && plan[1].from > start
      && (plan[1].from in keyframes || plan[1].from == end)
      && (forall k :: 0 <= k < |keyframes| && keyframes[k] > start ==> plan[1].from <= keyframes[k])
      && (end > start ==> plan[1].from <= end)
  {
    if start in keyframes then Ok([CopyCut(start, end - start, output)])
    else
      var candidates := keyframes + [end];
      assert candidates[|keyframes|] == end;
      assert forall k :: 0 <= k < |keyframes| ==> candidates[k] == keyframes[k];
      match LeastAbove(candidates, start)
      case None => Err(EmptyMin)
      case Some(next) =>
        Ok([Reencode(start, next - EndNudge, codec, bitrate), CopyRange(next, end), ConcatPieces(output)])
  }

  /** What `smart_cut_video` does once its probes have answered: nothing
      more after a failed probe; otherwise the cut plan for `[start, end]`,
      run until its first failing command. */
  function CutAfterProbes(tool: Command -> Reply, meta: Run<Metadata>, keys: Run<seq<real>>,
                          start: real, end: real, output: string): (r: Run<()>)
    ensures |meta.issued| <= |r.issued| && r.issued[..|meta.issued|] == meta.issued
    ensures r.outcome.Ok? ==> meta.outcome.Ok? && keys.outcome.Ok?
    // a failed probe ends the cut with its own failure
    ensures meta.outcome.Err? ==> r == Run(meta.issued, Err(meta.outcome.failure))
    ensures meta.outcome.Ok? && keys.outcome.Err? ==>
      r == Run(meta.issued + keys.issued, Err(keys.outcome.failure))
  {
    if meta.outcome.Err? then Run(meta.issued, Err(meta.outcome.failure))
    else if keys.outcome.Err? then Run(meta.issued + keys.issued, Err(keys.outcome.failure))
    else
      var m := meta.outcome.value;
      match CutPlan(start, end, keys.outcome.value, m.codec, m.bitrate, output)
      case Err(f) => Run(meta.issued + keys.issued, Err(f))
      case Ok(plan) =>
        var cut := RunAll(tool, plan);
        Run(meta.issued + keys.issued + cut.issued, cut.outcome)
  }

  /** Once the probes have answered, the cut succeeds exactly when both
      probes succeeded, the plan exists and every command of it exits with
      status zero; it then issued the probes followed by the whole plan. */
  lemma CutAfterProbesSucceeds(tool: Command -> Reply, meta: Run<Metadata>, keys: Run<seq<real>>,
                               start: real, end: real, output: string)
    ensures var r := CutAfterProbes(tool, meta, keys, start, end, output);
      r.outcome.Ok? <==>
        && meta.outcome.Ok? && keys.outcome.Ok?
        && var plan := CutPlan(start, end, keys.outcome.value, meta.outcome.value.codec, meta.outcome.value.bitrate, output);
           plan.Ok? && forall k :: 0 <= k < |plan.value| ==> tool(plan.value[k]).exitCode == 0
    ensures var r := CutAfterProbes(tool, meta, keys, start, end, output);
      r.outcome.Ok? ==>
        r.issued == meta.issued + keys.issued +
          CutPlan(start, end, keys.outcome.value, meta.outcome.value.codec, meta.outcome.value.bitrate, output).value
  {
  }

  /** `smart_cut_video`: metadata, keyframes around `start`, then the cut
      plan, each invocation only if everything before it succeeded. */
  function SmartCut(tool: Command -> Reply, start: real, end: real, output: string): (r: Run<()>)
    ensures |r.issued| >= 1 && r.issued[0] == ProbeCodec
    ensures r.outcome.Ok? ==>
      GetVideoMetadata(tool).outcome.Ok? && FindKeyFramesAt(tool, start, KeyframeWindow).outcome.Ok?
    // a failed metadata read or keyframe probe ends the cut with its own failure
    ensures var meta := GetVideoMetadata(tool);
      meta.outcome.Err? ==> r == Run(meta.issued, Err(meta.outcome.failure))
    ensures var keys := FindKeyFramesAt(tool, start, KeyframeWindow);
      GetVideoMetadata(tool).outcome.Ok? && keys.outcome.Err? ==>
        r == Run(MetadataProbes + [PacketProbe(start, KeyframeWindow)], Err(keys.outcome.failure))
  {
    var meta := GetVideoMetadata(tool);
    var r := CutAfterProbes(tool, meta, FindKeyFramesAt(tool, start, KeyframeWindow), start, end, output);
    assert r.issued[0] == r.issued[..|meta.issued|][0] == MetadataProbes[0];
    r
  }

  /** A smart cut succeeds exactly when both probes succeed, the cut plan
      exists and every command of it exits with status zero; it then issued
      the four probes followed by the whole plan. */
  lemma SmartCutSucceeds(tool: Command -> Reply, start: real, end: real, output: string)
    ensures var r := SmartCut(tool, start, end, output);
      r.outcome.Ok? <==>
        && GetVideoMetadata(tool).outcome.Ok? && FindKeyFramesAt(tool, start, KeyframeWindow).outcome.Ok?
        && var m := GetVideoMetadata(tool).outcome.value;
           var plan := CutPlan(start, end, FindKeyFramesAt(tool, start, KeyframeWindow).outcome.value, m.codec, m.bitrate, output);
           plan.Ok? && forall k :: 0 <= k < |plan.value| ==> tool(plan.value[k]).exitCode == 0
    ensures var r := SmartCut(tool, start, end, output);
      r.outcome.Ok? ==>
        var m := GetVideoMetadata(tool).outcome.value;
        r.issued == MetadataProbes + [PacketProbe(start, KeyframeWindow)] +
          CutPlan(start, end, FindKeyFramesAt(tool, start, KeyframeWindow).outcome.value, m.codec, m.bitrate, output).value
  {
    CutAfterProbesSucceeds(tool, GetVideoMetadata(tool), FindKeyFramesAt(tool, start, KeyframeWindow), start, end, output);
  }

  /** When `start` is a keyframe, the probes are followed by one stream copy. */
  lemma KeyframeCutCopies(tool: Command -> Reply, meta: Run<Metadata>, keys: Run<seq<real>>,
                          start: real, end: real, output: string)
    requires meta.outcome.Ok? && keys.outcome.Ok? && start in keys.outcome.value
    ensures CutAfterProbes(tool, meta, keys, start, end, output).issued ==
      meta.issued + keys.issued + [CopyCut(start, end - start, output)]
  {
    OneCommandIssued(tool, CopyCut(start, end - start, output));
  }

  /** The same for the whole smart cut: exactly the probes and one stream copy. */
  lemma KeyframeStartCopies(tool: Command -> Reply, start: real, end: real, output: string)
    requires GetVideoMetadata(tool).outcome.Ok?
    requires FindKeyFramesAt(tool, start, KeyframeWindow).outcome.Ok?
    requires start in FindKeyFramesAt(tool, start, KeyframeWindow).outcome.value
    ensures SmartCut(tool, start, end, output).issued ==
      MetadataProbes + [PacketProbe(start, KeyframeWindow)] + [CopyCut(start, end - start, output)]
  {
    KeyframeCutCopies(tool, GetVideoMetadata(tool), FindKeyFramesAt(tool, start, KeyframeWindow), start, end, output);
  }

  /** So a cut from a keyframe never re-encodes, copies a range or concatenates. */
  lemma KeyframeStartNeverReencodes(tool: Command -> Reply, start: real, end: real, output: string)
    requires GetVideoMetadata(tool).outcome.Ok?
    requires FindKeyFramesAt(tool, start, KeyframeWindow).outcome.Ok?
    requires start in FindKeyFramesAt(tool, start, KeyframeWindow).outcome.value
    ensures var issued := SmartCut(tool, start, end, output).issued;
      forall k :: 0 <= k < |issued| ==> !issued[k].Reencode? && !issued[k].CopyRange? && !issued[k].ConcatPieces?
  {
    KeyframeStartCopies(tool, start, end, output);
    NothingReencoded(SmartCut(tool, start, end, output).issued, PacketProbe(start, KeyframeWindow),
                     CopyCut(start, end - start, output));
  }

  /** A single command is issued whatever its outcome. */
  lemma OneCommandIssued(tool: Command -> Reply, c: Command)
    ensures RunAll(tool, [c]).issued == [c]
  {
    var r := RunAll(tool, [c]);
    if r.outcome.Err? {
      assert |r.issued| == 1;
    }
  }

  lemma NothingReencoded(issued: seq<Command>, probe: Command, copy: Command)
    requires probe.ProbePackets? && copy.CopyCut?
    requires issued == MetadataProbes + [probe] + [copy]
    ensures forall k :: 0 <= k < |issued| ==> !issued[k].Reencode? && !issued[k].CopyRange? && !issued[k].ConcatPieces?
  {
  }

  /** When `start` is not a keyframe and the cut is not empty, the first
      command after the probes re-encodes from `start` to just before a
      point in `(start, end]`. */
  lemma OffKeyframeCutReencodes(tool: Command -> Reply, meta: Run<Metadata>, keys: Run<seq<real>>,
                                start: real, end: real, output: string)
    requires meta.outcome.Ok? && keys.outcome.Ok? && start !in keys.outcome.value
    requires end > start
    ensures var issued := CutAfterProbes(tool, meta, keys, start, end, output).issued;
      var n := |meta.issued| + |keys.issued|;
      |issued| > n && issued[n].Reencode? && issued[n].from == start &&
      start < issued[n].to + EndNudge <= end
  {
    var m := meta.outcome.value;
    var plan := CutPlan(start, end, keys.outcome.value, m.codec, m.bitrate, output);
    assert plan.Ok?;
    var cut := RunAll(tool, plan.value);
    assert cut.issued[0] == plan.value[0];
  }

  /** The same for the whole smart cut: the fifth command is that re-encode. */
  lemma OffKeyframeReencodes(tool: Command -> Reply, start: real, end: real, output: string)
    requires GetVideoMetadata(tool).outcome.Ok?
    requires FindKeyFramesAt(tool, start, KeyframeWindow).outcome.Ok?
    requires start !in FindKeyFramesAt(tool, start, KeyframeWindow).outcome.value
    requires end > start
    ensures var issued := SmartCut(tool, start, end, output).issued;
      |issued| >= 5 && issued[4].Reencode? && issued[4].from == start &&
      start < issued[4].to + EndNudge <= end
  {
    OffKeyframeCutReencodes(tool, GetVideoMetadata(tool), FindKeyFramesAt(tool, start, KeyframeWindow), start, end, output);
  }

  /** The cut commands from a non-keyframe, in order: the re-encode of the
      head up to just before a point after `start`, the stream copy from that
      point to `end`, and the concatenation into `output`. */
  predicate ReencodeCopyConcat(cut: seq<Command>, start: real, end: real, codec: string, bitrate: real, output: string) {
    && |cut| == 3 && cut[1].CopyRange?
    && cut[0] == Reencode(start, cut[1].from - EndNudge, codec, bitrate)
    && cut[1] == CopyRange(cut[1].from, end)
    && cut[2] == ConcatPieces(output)
    && start < cut[1].from
  }

  /** A successful cut from a non-keyframe issues the four probes and then
      exactly those three commands. */
  lemma OffKeyframeOrder(tool: Command -> Reply, start: real, end: real, output: string)
    requires SmartCut(tool, start, end, output).outcome.Ok?
    requires start !in FindKeyFramesAt(tool, start, KeyframeWindow).outcome.value
    ensures var issued := SmartCut(tool, start, end, output).issued;
      var m := GetVideoMetadata(tool).outcome.value;
      |issued| == 7 && issued[..4] == MetadataProbes + [PacketProbe(start, KeyframeWindow)] &&
      ReencodeCopyConcat(issued[4..], start, end, m.codec, m.bitrate, output)
  {
    SmartCutSucceeds(tool, start, end, output);
    var m := GetVideoMetadata(tool).outcome.value;
    PlanAfterProbes(SmartCut(tool, start, end, output).issued, PacketProbe(start, KeyframeWindow),
                    FindKeyFramesAt(tool, start, KeyframeWindow).outcome.value, start, end, m.codec, m.bitrate, output);
  }

  lemma PlanAfterProbes(issued: seq<Command>, probe: Command, keys: seq<real>,
                        start: real, end: real, codec: string, bitrate: real, output: string)
    requires start !in keys && CutPlan(start, end, keys, codec, bitrate, output).Ok?
    requires issued == MetadataProbes + [probe] + CutPlan(start, end, keys, codec, bitrate, output).value
    ensures |issued| == 7 && issued[..4] == MetadataProbes + [probe]
    ensures ReencodeCopyConcat(issued[4..], start, end, codec, bitrate, output)
  {
    assert issued[4..] == CutPlan(start, end, keys, codec, bitrate, output).value;
  }

  /** A cut that ends at or before a non-keyframe start with no keyframe after
      it fails in `min()` before any cut command is issued. */
  lemma EmptyCutFails(tool: Command -> Reply, start: real, end: real, output: string)
    requires GetVideoMetadata(tool).outcome.Ok?
    requires FindKeyFramesAt(tool, start, KeyframeWindow).outcome.Ok?
    requires var ks := FindKeyFramesAt(tool, start, KeyframeWindow).outcome.value;
      start !in ks && forall k :: 0 <= k < |ks| ==> ks[k] <= start
    requires end <= start
    ensures SmartCut(tool, start, end, output) ==
      Run(MetadataProbes + [PacketProbe(start, KeyframeWindow)], Err(EmptyMin))
  {
    var m := GetVideoMetadata(tool).outcome.value;
    var ks := FindKeyFramesAt(tool, start, KeyframeWindow).outcome.value;
    assert CutPlan(start, end, ks, m.codec, m.bitrate, output) == Err(EmptyMin);
  }
}

=== FILE: invoker.dfy ===
/** The external media tools, seen from the splitter: a command goes in, an
    exit status and the merged standard output and error text come out.
    The tool itself is a parameter of every workflow function, so the
    model says which commands are issued, in which order, and what becomes
    of their replies, without saying anything about what the tool does. */
module Invoker {

  /** The invocations the splitter makes, with the parameters that vary
      between calls; the fixed arguments and the input path are implicit. */
  datatype Command =
    | ProbeCodec                                        // ffprobe stream=codec_name
    | ProbeDuration                                     // ffprobe format=duration
    | MeasureVideo                                      // ffmpeg -f null -c copy -map 0:v:0
    | BlackDetect(minDuration: real, pictureTh: real, pixelTh: real)
    | BannerBlackDetect(minDuration: real, pictureTh: real, pixelTh: real)  // the same filter without -hide_banner
    | SceneSelect(minChange: real)                      // select='gt(scene,...)',showinfo
    | ProbePackets(from: real, to: real)                // -read_intervals from%to
    | CopyCut(from: real, length: real, output: string) // keyframe cut by stream copy
    | Reencode(from: real, to: real, codec: string, bitrate: real)  // first temporary piece
    | CopyRange(from: real, to: real)                   // second temporary piece
    | ConcatPieces(output: string)                      // concat demuxer over both pieces
    | CopyHead(to: real, output: string)                // -ss 0 -to t -c copy
    | CopyTail(from: real, output: string)              // -ss t -c copy

  datatype Reply = Reply(exitCode: int, output: string)

  /** The exceptions the splitter lets escape, one per cause. */
  datatype Failure =
    | ToolFailed(command: Command)  // CalledProcessError: non-zero exit status
    | NoMatch                       // IndexError: the first of no regex matches
    | MissingField                  // IndexError: a packet row without a second field
    | NotANumber                    // ValueError: float() of a malformed number
    | DivisionByZero                // ZeroDivisionError: a zero duration
    | NoKeyframes                   // ValueError: no packet row is flagged as a keyframe
    | EmptyMin                      // ValueError: min() of an empty sequence

  datatype Result<+T> = Ok(value: T) | Err(failure: Failure)

  /** One step of the workflow: the commands it issued, in order, and its outcome. */
  datatype Run<+T> = Run(issued: seq<Command>, outcome: Result<T>)

  /** Runs one command and returns its text, raising when the exit status is not zero. */
  function Invoke(tool: Command -> Reply, c: Command): (r: Result<string>)
    ensures r.Ok? <==> tool(c).exitCode == 0
    ensures r.Ok? ==> r.value == tool(c).output
    ensures r.Err? ==> r.failure == ToolFailed(c)
  {
    if tool(c).exitCode == 0 then Ok(tool(c).output) else Err(ToolFailed(c))
  }

  /** Runs `cmds` one after the other, each only if all before it succeeded. */
  function RunAll(tool: Command -> Reply, cmds: seq<Command>): (r: Run<()>)
    ensures r.outcome.Ok? <==> forall k :: 0 <= k < |cmds| ==> tool(cmds[k]).exitCode == 0
    ensures r.outcome.Ok? ==> r.issued == cmds
    ensures r.outcome.Err? ==>
      && 0 < |r.issued| <= |cmds|
      && r.issued == cmds[..|r.issued|]
      && r.outcome.failure == ToolFailed(cmds[|r.issued| - 1])
      && tool(cmds[|r.issued| - 1]).exitCode != 0
      && forall k :: 0 <= k < |r.issued| - 1 ==> tool(cmds[k]).exitCode == 0
    decreases |cmds|
  {
    if cmds == [] then Run([], Ok(()))
    else match Invoke(tool, cmds[0])
      case Err(f) => Run([cmds[0]], Err(f))
      case Ok(_) =>
        var rest := RunAll(tool, cmds[1..]);
        assert cmds == [cmds[0]] + cmds[1..];
        Run([cmds[0]] + rest.issued, rest.outcome)
  }

  /** Running a plan in two parts is running the parts one after the other. */
  lemma {:induction false} RunAllAppend(tool: Command -> Reply, a: seq<Command>, b: seq<Command>)
    ensures RunAll(tool, a + b) ==
      (var first := RunAll(tool, a);
       if first.outcome.Err? then first
       else var second := RunAll(tool, b); Run(a + second.issued, second.outcome))
    decreases |a|
  {
    if a != [] {
      assert (a + b)[1..] == a[1..] + b;
      RunAllAppend(tool, a[1..], b);
    } else {
      assert a + b == b;
    }
  }

  /** The values of `rs` in order when all succeed, else the first failure:
      what a list comprehension yields when each element may raise. */
  function Collect<T>(rs: seq<Result<T>>): (r: Result<seq<T>>)
    ensures r.Ok? <==> forall k :: 0 <= k < |rs| ==> rs[k].Ok?
    ensures r.Ok? ==> |r.value| == |rs| && forall k :: 0 <= k < |rs| ==> rs[k] == Ok(r.value[k])
    ensures r.Err? ==>
      exists k :: 0 <= k < |rs| && rs[k] == Err(r.failure) && forall j :: 0 <= j < k ==> rs[j].Ok?
    decreases |rs|
  {
    if rs == [] then Ok([])
    else match rs[0]
      case Err(f) => Err(f)
      case Ok(v) =>
        match Collect(rs[1..])
        case Err(f) =>
          var k :| 0 <= k < |rs[1..]| && rs[1..][k] == Err(f) && (forall j :: 0 <= j < k ==> rs[1..][j].Ok?);
          assert rs[k + 1] == Err(f);
          assert forall j :: 0 <= j < k + 1 ==> rs[j].Ok?;
          Err(f)
        case Ok(vs) =>
          assert forall k :: 1 <= k < |rs| ==> rs[k] == rs[1..][k - 1];
          Ok([v] + vs)
  }
}

=== FILE: legacy.dfy ===
/** The older helpers kept beside the smart cut: black-frame and scene
    detection that read the tool's text whatever its exit status, and the
    fast split that cuts both halves by stream copy at the same printed
    time. */
module Legacy {
  import opened Options
  import opened Text
  import opened Invoker
  import opened Decoders
  import opened Ffmpeg
  import opened Patterns

  /** `detect_black_frames`: one blackdetect pass, with the tool's banner
      left on; the midpoints of the reported black segments. A failing pass
      is not an error here: its text is decoded all the same. */
  function DetectBlackFrames(tool: Command -> Reply, minDuration: real, pictureTh: real, pixelTh: real): (r: Run<seq<real>>)
    ensures r.issued == [BannerBlackDetect(minDuration, pictureTh, pixelTh)]
    ensures r.outcome.Ok?
    ensures var ms := BlackMatches(tool(BannerBlackDetect(minDuration, pictureTh, pixelTh)).output);
      && |r.outcome.value| == |ms|
      && forall k :: 0 <= k < |ms| ==>
           var g := ms[k].groups;
           ParseFloat(g[0]).Some? && ParseFloat(g[1]).Some? &&
           r.outcome.value[k] == (ParseFloat(g[0]).value + ParseFloat(g[1]).value) / 2.0
  {
    var c := BannerBlackDetect(minDuration, pictureTh, pixelTh);
    Run([c], Ok(BlackMidpoints(tool(c).output)))
  }

  /** The two black detections differ only in the banner. Where the banner
      leaves the reported intervals as they are, the legacy one yields the
      newer one's times whenever the newer one succeeds, and the newer one
      fails exactly on a non-zero exit status. */
  lemma BlackFramesAgree(tool: Command -> Reply, minDuration: real, pictureTh: real, pixelTh: real)
    requires Captures(BlackMatches(tool(BannerBlackDetect(minDuration, pictureTh, pixelTh)).output)) ==
             Captures(BlackMatches(tool(BlackDetect(minDuration, pictureTh, pixelTh)).output))
    ensures var legacy := DetectBlackFrames(tool, minDuration, pictureTh, pixelTh);
      var current := DetectBlackScene(tool, minDuration, pictureTh, pixelTh);
      && (current.outcome.Ok? ==> legacy.outcome == current.outcome)
      && (current.outcome.Err? <==>
            tool(BlackDetect(minDuration, pictureTh, pixelTh)).exitCode != 0)
  {
    SameCapturesSameMidpoints(tool(BannerBlackDetect(minDuration, pictureTh, pixelTh)).output,
                              tool(BlackDetect(minDuration, pictureTh, pixelTh)).output);
  }

  /** The scene threshold `detect_scene_frames` hard-codes. */
  const LegacySceneThreshold: real := 0.3

  /** `detect_scene_frames`: one scene-select pass at the fixed threshold;
      every reported presentation time, failing pass or not. */
  function DetectSceneFrames(tool: Command -> Reply): (r: Run<seq<real>>)
    ensures r.issued == [SceneSelect(LegacySceneThreshold)]
    ensures r.outcome.Ok?
    ensures var ms := PtsMatches(tool(SceneSelect(LegacySceneThreshold)).output);
      && |r.outcome.value| == |ms|
      && forall k :: 0 <= k < |ms| ==>
           ParseFloat(ms[k].groups[0]) == Some(r.outcome.value[k]) && r.outcome.value[k] >= 0.0
  {
    var c := SceneSelect(LegacySceneThreshold);
    Run([c], Ok(SceneTimes(tool(c).output)))
  }

  /** The legacy scene detection is the newer one at its default threshold,
      except that it does not fail on a non-zero exit status. */
  lemma SceneFramesAgree(tool: Command -> Reply)
    ensures var legacy := DetectSceneFrames(tool);
      var current := DetectSceneChange(tool, DefaultMinSceneChange);
      && legacy.issued == current.issued
      && (current.outcome.Ok? ==> legacy.outcome == current.outcome)
  {
  }

  /** `split_video_fast`: the head `[0, t]` then the tail from `t`, both by
      stream copy, with `t` printed to two places in both commands; the tail
      is cut only when the head succeeded. */
  function SplitVideoFast(tool: Command -> Reply, t: real, head: string, tail: string): (r: Run<()>)
    ensures 1 <= |r.issued| <= 2
    ensures r.issued[0].CopyHead? && r.issued[0].output == head
    ensures r.issued[0].to * 100.0 == Units(t, 2) as real
    ensures -0.005 <= r.issued[0].to - t <= 0.005
    ensures |r.issued| == 2 ==> r.issued[1] == CopyTail(r.issued[0].to, tail)
    ensures |r.issued| == 2 <==> tool(r.issued[0]).exitCode == 0
    ensures r.outcome.Ok? <==> |r.issued| == 2 && tool(r.issued[1]).exitCode == 0
    ensures r.outcome.Err? ==> r.outcome.failure == ToolFailed(r.issued[|r.issued| - 1])
  {
    var at := Fixed(t, 2);
    FixedTwo(t);
    RunAll(tool, [CopyHead(at, head), CopyTail(at, tail)])
  }

  /** A split time already given to two places is the one both commands use. */
  lemma SplitAtExactTime(tool: Command -> Reply, k: int, head: string, tail: string)
    ensures SplitVideoFast(tool, k as real / 100.0, head, tail).issued[0] ==
      CopyHead(k as real / 100.0, head)
  {
    FixedTwoExact(k);
  }
}

=== FILE: options.dfy ===
/** The conventional optional value, used for partial decoders. */
module Options {

  datatype Option<+T> = None | Some(value: T)
}

=== FILE: paths.dfy ===
/** Output naming: `os.path.splitext` and the `.part1` / `.part2` names
    built from it. The separator set is a parameter: `{'/'}` on POSIX,
    `{'\\', '/'}` on Windows. */
module Paths {

  const PosixSeparators: set<char> := {'/'}
  const WindowsSeparators: set<char> := {'\\', '/'}

  /** The separator sets `os.path` uses: no separator is a dot, a letter or a digit. */
  predicate PlainSeparators(seps: set<char>) {
    forall c :: c in seps ==> c == '/' || c == '\\'
  }

  /** The index of the last character of `p` in `cs`, or -1 when there is none. */
  function LastIndexIn(p: string, cs: set<char>): (k: int)
    ensures -1 <= k < |p|
    ensures k >= 0 ==> p[k] in cs
    ensures forall j :: k < j < |p| ==> p[j] !in cs
    decreases |p|
  {
    if p == [] then -1
    else if p[|p| - 1] in cs then |p| - 1
    else LastIndexIn(p[..|p| - 1], cs)
  }

  /** Any index with the two properties of `LastIndexIn` is the one it returns. */
  lemma LastIndexUnique(p: string, cs: set<char>, k: int)
    requires -1 <= k < |p|
    requires k >= 0 ==> p[k] in cs
    requires forall j :: k < j < |p| ==> p[j] !in cs
    ensures k == LastIndexIn(p, cs)
  {
  }

  /** `os.path.splitext(p)`: the extension starts at the last dot of the last
      path component, provided something other than a dot comes before that
      dot within the component; otherwise there is no extension. */
  function SplitExt(p: string, seps: set<char>): (r: (string, string))
    ensures r.0 + r.1 == p
    ensures r.1 != [] ==> r.1[0] == '.' && forall j :: 1 <= j < |r.1| ==> r.1[j] != '.' && r.1[j] !in seps
    ensures r.1 != [] ==> exists j :: LastIndexIn(p, seps) < j < |r.0| && p[j] != '.'
    ensures r.1 == [] ==>
      forall i, j :: LastIndexIn(p, seps) < j < i < |p| && p[i] == '.' ==> p[j] == '.'
  {
    var sep := LastIndexIn(p, seps);
    var dot := LastIndexIn(p, {'.'});
    if dot > sep && exists j :: sep < j < dot && p[j] != '.' then
      assert forall j :: 1 <= j < |p[dot..]| ==> p[dot..][j] == p[dot + j];
      (p[..dot], p[dot..])
    else
      (p, [])
  }

  /** `f"{base}.part{tag}{ext}"` for the split of `p`. */
  function PartName(p: string, seps: set<char>, tag: string): (name: string)
    ensures var (base, ext) := SplitExt(p, seps); name == base + ".part" + tag + ext
    ensures |name| == |p| + 5 + |tag|
  {
    var (base, ext) := SplitExt(p, seps);
    base + ".part" + tag + ext
  }

  /** The two part names differ from each other and from the input. */
  lemma PartNamesDistinct(p: string, seps: set<char>)
    ensures PartName(p, seps, "1") != PartName(p, seps, "2")
    ensures PartName(p, seps, "1") != p && PartName(p, seps, "2") != p
  {
    var (base, ext) := SplitExt(p, seps);
    assert PartName(p, seps, "1")[|base| + 5] == '1';
    assert PartName(p, seps, "2")[|base| + 5] == '2';
  }

  /** A part name keeps the extension of the input: splitting it again gives
      the input's base with the part suffix, and the same extension. */
  lemma PartNameKeepsExtension(p: string, seps: set<char>, tag: string)
    requires PlainSeparators(seps)
    requires forall j :: 0 <= j < |tag| ==> tag[j] != '.' && tag[j] !in seps
    requires SplitExt(p, seps).1 != []
    ensures var (base, ext) := SplitExt(p, seps);
      SplitExt(PartName(p, seps, tag), seps) == (base + ".part" + tag, ext)
  {
    var (base, ext) := SplitExt(p, seps);
    var stem := base + ".part" + tag;
    var name := stem + ext;
    assert name == PartName(p, seps, tag);
    var sep := LastIndexIn(p, seps);
    // the last dot of the part name is the extension's own
    LastIndexUnique(name, {'.'}, |stem|);
    // the suffix holds no separator, so the last one is still the input's
    assert NoneOf(tag, seps);
    SuffixKeepsSeparator(p, seps, tag, base, ext);
    // and the `t` of `.part` is no dot
    assert name[|base| + 4] == 't';
    var r := SplitExt(name, seps);
    assert r == (name[..|stem|], name[|stem|..]);
    assert name[..|stem|] == stem && name[|stem|..] == ext;
  }

  /** Inserting a separator-free suffix before a separator-free extension
      leaves the last separator where it was, inside the base. */
  lemma SuffixKeepsSeparator(p: string, seps: set<char>, tag: string, base: string, ext: string)
    requires PlainSeparators(seps) && NoneOf(tag, seps)
    requires (base, ext) == SplitExt(p, seps) && ext != []
    ensures LastIndexIn(base + ".part" + tag + ext, seps) == LastIndexIn(p, seps)
  {
    assert NoneOf(ext, seps) by {
      assert ext[0] !in seps;
    }
    PartHasNoSeparator(seps);
    NoneOfAppend(".part", tag, seps);
    NoneOfAppend(".part" + tag, ext, seps);
    var suffix := ".part" + tag + ext;
    assert base + ".part" + tag + ext == base + suffix;
    LastIndexAppend(base, suffix, seps);
    LastIndexAppend(base, ext, seps);
  }

  /** No character of `x` is in `cs`. */
  predicate NoneOf(x: string, cs: set<char>) {
    forall j :: 0 <= j < |x| ==> x[j] !in cs
  }

  lemma PartHasNoSeparator(seps: set<char>)
    requires PlainSeparators(seps)
    ensures NoneOf(".part", seps)
  {
    forall j | 0 <= j < 5 ensures ".part"[j] !in seps {
      assert ".part"[j] in {'.', 'p', 'a', 'r', 't'};
    }
  }

  lemma NoneOfAppend(a: string, b: string, cs: set<char>)
    requires NoneOf(a, cs) && NoneOf(b, cs)
    ensures NoneOf(a + b, cs)
  {
    forall j | 0 <= j < |a + b| ensures (a + b)[j] !in cs {
      if j >= |a| {
        assert (a + b)[j] == b[j - |a|];
      }
    }
  }

  /** Appending characters none of which is in `cs` leaves the last one where it was. */
  lemma LastIndexAppend(a: string, b: string, cs: set<char>)
    requires NoneOf(b, cs)
    ensures LastIndexIn(a + b, cs) == LastIndexIn(a, cs)
  {
    var k := LastIndexIn(a, cs);
    forall j | k < j < |a + b| ensures (a + b)[j] !in cs {
      if j >= |a| {
        assert (a + b)[j] == b[j - |a|];
      }
    }
    if k >= 0 {
      assert (a + b)[k] == a[k];
    }
    LastIndexUnique(a + b, cs, k);
  }

  /** A plain file name splits at its last dot; a leading dot alone starts no
      extension; a dot in a directory name is not an extension. */
  lemma SplitExtExamples()
    ensures SplitExt("movie.final.mp4", PosixSeparators) == ("movie.final", ".mp4")
    ensures SplitExt(".profile", PosixSeparators) == (".profile", "")
    ensures SplitExt("clips.d/take", PosixSeparators) == ("clips.d/take", "")
  {
    var p := "movie.final.mp4";
    LastIndexUnique(p, PosixSeparators, -1);
    LastIndexUnique(p, {'.'}, 11);
    assert p[0] != '.';
    assert p[..11] == "movie.final" && p[11..] == ".mp4";
    var q := ".profile";
    LastIndexUnique(q, PosixSeparators, -1);
    LastIndexUnique(q, {'.'}, 0);
    var d := "clips.d/take";
    LastIndexUnique(d, PosixSeparators, 7);
    LastIndexUnique(d, {'.'}, 5);
  }

  /** Which characters separate directories depends on the platform: a
      backslash ends a directory name on Windows only. */
  lemma SeparatorExamples()
    ensures SplitExt("clips.d\\take", WindowsSeparators) == ("clips.d\\take", "")
    ensures SplitExt("clips.d\\take", PosixSeparators) == ("clips", ".d\\take")
  {
    var w := "clips.d\\take";
    LastIndexUnique(w, WindowsSeparators, 7);
    LastIndexUnique(w, PosixSeparators, -1);
    LastIndexUnique(w, {'.'}, 5);
    assert w[0] != '.';
    assert w[..5] == "clips" && w[5..] == ".d\\take";
  }

  /** An input without an extension keeps none in its part names: the part
      suffix itself is then read as the extension of the part name. */
  lemma PartNameWithoutExtension()
    ensures SplitExt("video", PosixSeparators) == ("video", "")
    ensures PartName("video", PosixSeparators, "1") == "video.part1"
    ensures SplitExt("video.part1", PosixSeparators) == ("video", ".part1")
  {
    var v := "video";
    LastIndexUnique(v, PosixSeparators, -1);
    LastIndexUnique(v, {'.'}, -1);
    var n := "video.part1";
    LastIndexUnique(n, PosixSeparators, -1);
    LastIndexUnique(n, {'.'}, 5);
    assert n[0] != '.';
    assert n[..5] == "video" && n[5..] == ".part1";
  }
}

=== FILE: patterns.dfy ===
/**
 The three regular expressions the splitter applies to the media tool's
 diagnostic text, and `re.findall` over them.

 A pattern is a list of tokens: a literal, a run of white space (`\s+`), a
 captured run of digits (`(\d+)`) or a captured decimal (`(\d+\.\d+)`).
 `Matches` is what the regular expression accepts; `MatchFrom` is the greedy
 left-to-right reading. For patterns in which every greedy token is followed
 by something it cannot consume (`Deterministic`), the greedy reading finds a
 match exactly when one exists, and the longest one, which is what Python's
 backtracking matcher reports for them.
 */
module Patterns {
  import opened Options
  import opened Text

  datatype Token = Lit(text: string) | Blank | Number | Decimal

  /** `black_start:(\d+\.\d+)\s+black_end:(\d+\.\d+)\s+black_duration:(\d+\.\d+)` */
  const BlackPattern: seq<Token> :=
    [Lit("black_start:"), Decimal, Blank, Lit("black_end:"), Decimal, Blank, Lit("black_duration:"), Decimal]

  /** `pts_time:(\d+\.\d+)` */
  const PtsPattern: seq<Token> := [Lit("pts_time:"), Decimal]

  /** `video:(\d+)KiB` */
  const SizePattern: seq<Token> := [Lit("video:"), Number, Lit("KiB")]

  /** The regular expression `toks` accepts exactly `t`, capturing `groups`. */
  ghost predicate Matches(toks: seq<Token>, t: string, groups: seq<string>)
    decreases |toks|
  {
    if toks == [] then t == [] && groups == []
    else match toks[0]
      case Lit(x) =>
        |x| <= |t| && t[..|x|] == x && Matches(toks[1..], t[|x|..], groups)
      case Blank =>
        exists k :: 0 < k <= |t| && AllSpace(t[..k]) && Matches(toks[1..], t[k..], groups)
      case Number =>
        groups != [] &&
        exists k :: 0 < k <= |t| && groups[0] == t[..k] && AllDigits(t[..k]) && Matches(toks[1..], t[k..], groups[1..])
      case Decimal =>
        groups != [] &&
        exists k :: 0 < k <= |t| && groups[0] == t[..k] && DecimalSyntax(t[..k]) && Matches(toks[1..], t[k..], groups[1..])
  }

  /** Whether a text accepted by `tok` may begin with `c`. */
  predicate MayStart(tok: Token, c: char) {
    match tok
    case Lit(x) => x != [] && x[0] == c
    case Blank => IsSpace(c)
    case Number => IsDigit(c)
    case Decimal => IsDigit(c)
  }

  /** `next` can never begin with a character `tok` would go on consuming. */
  predicate Separated(tok: Token, next: Token) {
    match tok
    case Lit(_) => true
    case Blank => (next.Lit? && next.text != [] && !IsSpace(next.text[0])) || next.Number? || next.Decimal?
    case Number => (next.Lit? && next.text != [] && !IsDigit(next.text[0])) || next.Blank?
    case Decimal => (next.Lit? && next.text != [] && !IsDigit(next.text[0])) || next.Blank?
  }

  /** No literal is empty and every greedy token is followed by something it cannot consume. */
  predicate Deterministic(toks: seq<Token>) {
    && (forall j :: 0 <= j < |toks| ==> toks[j].Lit? ==> toks[j].text != [])
    && (forall j :: 0 <= j < |toks| - 1 ==> Separated(toks[j], toks[j + 1]))
  }

  /** The pattern opens with a non-empty literal, so no match is empty. */
  predicate Anchored(toks: seq<Token>) {
    toks != [] && toks[0].Lit? && toks[0].text != []
  }

  lemma PatternsAreWellBehaved()
    ensures Deterministic(BlackPattern) && Anchored(BlackPattern)
    ensures Deterministic(PtsPattern) && Anchored(PtsPattern)
    ensures Deterministic(SizePattern) && Anchored(SizePattern)
  {
  }

  predicate LiteralAt(s: string, i: nat, x: string) {
    i + |x| <= |s| && s[i..i + |x|] == x
  }

  // ---------------------------------------------------------------------
  // the greedy decimal reader

  /** Where a greedy `\d+\.\d+` that starts at `i` ends, if it matches there. */
  function DecimalEnd(s: string, i: nat): (e: Option<nat>)
    requires i <= |s|
    ensures e.Some? ==> i < e.value <= |s|
    ensures e.Some? ==> e.value == |s| || !IsDigit(s[e.value])
  {
    var a := Span(s, i, Digits);
    if a == 0 || i + a == |s| || s[i + a] != '.' then None
    else
      var b := Span(s, i + a + 1, Digits);
      if b == 0 then None
      else Some(i + a + 1 + b)
  }

  /** What the greedy decimal reader takes is a decimal. */
  lemma DecimalEndSyntax(s: string, i: nat)
    requires i <= |s| && DecimalEnd(s, i).Some?
    ensures DecimalSyntax(s[i..DecimalEnd(s, i).value])
  {
    var a := Span(s, i, Digits);
    var b := Span(s, i + a + 1, Digits);
    DecimalAt(s, i, a, b);
  }

  lemma DigitsSlice(s: string, lo: nat, hi: nat)
    requires lo <= hi <= |s|
    ensures AllDigits(s[lo..hi]) <==> forall m :: lo <= m < hi ==> IsDigit(s[m])
  {
    if AllDigits(s[lo..hi]) {
      forall m | lo <= m < hi ensures IsDigit(s[m]) {
        assert s[m] == s[lo..hi][m - lo];
      }
    }
  }

  lemma DecimalAt(s: string, i: nat, a: nat, b: nat)
    requires 0 < a && 0 < b && i + a + 1 + b <= |s| && s[i + a] == '.'
    requires forall m :: i <= m < i + a ==> IsDigit(s[m])
    requires forall m :: i + a + 1 <= m < i + a + 1 + b ==> IsDigit(s[m])
    ensures DecimalSyntax(s[i..i + a + 1 + b])
  {
    var t := s[i..i + a + 1 + b];
    assert forall m :: 0 <= m < |t| ==> t[m] == s[i + m];
    assert AllDigits(t[..a]);
    assert AllDigits(t[a + 1..]);
    assert t[a] == '.';
  }

  /** A decimal that occupies `s[i..j]`, read position by position. */
  lemma DecimalParts(s: string, i: nat, j: nat) returns (k: nat)
    requires i <= j <= |s| && DecimalSyntax(s[i..j])
    ensures 0 < k && i + k + 1 < j && s[i + k] == '.'
    ensures forall m :: i <= m < i + k ==> InClass(s[m], Digits)
    ensures forall m :: i + k + 1 <= m < j ==> InClass(s[m], Digits)
  {
    var t := s[i..j];
    k :| 0 < k < |t| - 1 && t[k] == '.' && AllDigits(t[..k]) && AllDigits(t[k + 1..]);
    assert t[..k] == s[i..i + k];
    assert t[k + 1..] == s[i + k + 1..j];
    DigitsSlice(s, i, i + k);
    DigitsSlice(s, i + k + 1, j);
  }

  /** The greedy reader finds the longest decimal at `i`, and exactly the one
      given when the character after it cannot extend it. */
  lemma DecimalEndLongest(s: string, i: nat, j: nat)
    requires i <= j <= |s| && DecimalSyntax(s[i..j])
    ensures DecimalEnd(s, i).Some? && j <= DecimalEnd(s, i).value
    ensures (j == |s| || !IsDigit(s[j])) ==> DecimalEnd(s, i) == Some(j)
  {
    var k := DecimalParts(s, i, j);
    var n := j - i - k - 1;
    SpanExact(s, i, k, Digits);
    SpanAtLeast(s, i + k + 1, n, Digits);
    if j == |s| || !IsDigit(s[j]) {
      SpanExact(s, i + k + 1, n, Digits);
    }
  }

  lemma {:induction false} SpanAtLeast(s: string, i: nat, n: nat, cls: CharClass)
    requires i + n <= |s|
    requires forall m :: i <= m < i + n ==> InClass(s[m], cls)
    ensures n <= Span(s, i, cls)
    decreases n
  {
    if n > 0 {
      SpanAtLeast(s, i + 1, n - 1, cls);
    }
  }

  lemma SpanExact(s: string, i: nat, n: nat, cls: CharClass)
    requires i + n <= |s|
    requires forall m :: i <= m < i + n ==> InClass(s[m], cls)
    requires i + n == |s| || !InClass(s[i + n], cls)
    ensures Span(s, i, cls) == n
  {
    SpanAtLeast(s, i, n, cls);

  }

  // ---------------------------------------------------------------------
  // the greedy matcher

  datatype Hit = Hit(end: nat, groups: seq<string>)

  /** The capturing tokens of a pattern, in order. */
  function Capturing(toks: seq<Token>): seq<Token>
    decreases |toks|
  {
    if toks == [] then []
    else (if toks[0].Number? || toks[0].Decimal? then [toks[0]] else []) + Capturing(toks[1..])
  }

  /** What a text read by `tok` looks like; for a capturing token, its group. */
  ghost predicate Fits(tok: Token, g: string) {
    match tok
    case Lit(x) => g == x
    case Blank => g != [] && AllSpace(g)
    case Number => g != [] && AllDigits(g)
    case Decimal => DecimalSyntax(g)
  }

  /** One group per capturing token, each of the shape its token reads. */
  ghost predicate GroupsFit(toks: seq<Token>, groups: seq<string>) {
    var caps := Capturing(toks);
    |groups| == |caps| && forall k :: 0 <= k < |groups| ==> Fits(caps[k], groups[k])
  }

  function Prepend(g: string, r: Option<Hit>): Option<Hit> {
    match r
    case None => None
    case Some(h) => Some(Hit(h.end, [g] + h.groups))
  }

  /** Reads `toks` greedily from position `i` of `s`: every run token takes
      as much as it can and nothing is given back. */
  function MatchFrom(toks: seq<Token>, s: string, i: nat): (r: Option<Hit>)
    requires i <= |s|
    ensures r.Some? ==> i <= r.value.end <= |s|
    ensures r.Some? && toks != [] && toks[0].Lit? ==> i + |toks[0].text| <= r.value.end
    decreases |toks|
  {
    if toks == [] then Some(Hit(i, []))
    else match toks[0]
      case Lit(x) =>
        if LiteralAt(s, i, x) then MatchFrom(toks[1..], s, i + |x|) else None
      case Blank =>
        var n := Span(s, i, Spaces);
        if n == 0 then None else MatchFrom(toks[1..], s, i + n)
      case Number =>
        var n := Span(s, i, Digits);
        if n == 0 then None else Prepend(s[i..i + n], MatchFrom(toks[1..], s, i + n))
      case Decimal =>
        match DecimalEnd(s, i)
        case None => None
        case Some(e) => Prepend(s[i..e], MatchFrom(toks[1..], s, e))
  }

  /** The greedy reader captures one group per capturing token, of its shape. */
  lemma {:induction false} MatchFromGroups(toks: seq<Token>, s: string, i: nat)
    requires i <= |s| && MatchFrom(toks, s, i).Some?
    ensures GroupsFit(toks, MatchFrom(toks, s, i).value.groups)
    decreases |toks|
  {
    if toks != [] {
      var j := RestStart(toks, s, i);
      MatchFromGroups(toks[1..], s, j);
      GroupsStep(toks, s, i);
    }
  }

  /** After its first token, the greedy reader resumes at `j`: that token
      read `s[i..j]`, and keeps it as a group when it captures. */
  ghost predicate StepsTo(toks: seq<Token>, s: string, i: nat, j: nat)
    requires i <= |s| && toks != []
  {
    && i <= j <= |s|
    && MatchFrom(toks[1..], s, j).Some?
    && Fits(toks[0], s[i..j])
    && MatchFrom(toks, s, i) ==
         if toks[0].Number? || toks[0].Decimal? then Prepend(s[i..j], MatchFrom(toks[1..], s, j))
         else MatchFrom(toks[1..], s, j)
  }

  /** Where the greedy reader resumes after the first token of `toks`. */
  function RestStart(toks: seq<Token>, s: string, i: nat): (j: nat)
    requires i <= |s| && toks != [] && MatchFrom(toks, s, i).Some?
    ensures StepsTo(toks, s, i, j)
  {
    var j := Resume(toks, s, i);
    StepResume(toks, s, i);
    j
  }

  function Resume(toks: seq<Token>, s: string, i: nat): nat
    requires i <= |s| && toks != []
  {
    match toks[0]
    case Lit(x) => i + |x|
    case Blank => i + Span(s, i, Spaces)
    case Number => i + Span(s, i, Digits)
    case Decimal => if DecimalEnd(s, i).Some? then DecimalEnd(s, i).value else i
  }

  lemma StepResume(toks: seq<Token>, s: string, i: nat)
    requires i <= |s| && toks != [] && MatchFrom(toks, s, i).Some?
    ensures StepsTo(toks, s, i, Resume(toks, s, i))
  {
    if toks[0].Lit? {
      StepLiteral(toks, s, i);
    } else if toks[0].Blank? {
      StepBlank(toks, s, i);
    } else if toks[0].Number? {
      StepNumber(toks, s, i);
    } else {
      StepDecimal(toks, s, i);
    }
  }

  /** The groups of the rest, with the first token's own group when it captures. */
  lemma GroupsStep(toks: seq<Token>, s: string, i: nat)
    requires i <= |s| && toks != [] && MatchFrom(toks, s, i).Some?
    requires GroupsFit(toks[1..], MatchFrom(toks[1..], s, RestStart(toks, s, i)).value.groups)
    ensures GroupsFit(toks, MatchFrom(toks, s, i).value.groups)
  {
    var j := RestStart(toks, s, i);
    var gs := MatchFrom(toks[1..], s, j).value.groups;
    if toks[0].Number? || toks[0].Decimal? {
      GroupsFitCons(toks, s[i..j], gs);
    } else {
      GroupsFitSkip(toks, gs);
    }
  }

  /** The first step of the greedy reader, one lemma per kind of token. */
  lemma StepLiteral(toks: seq<Token>, s: string, i: nat)
    requires i <= |s| && toks != [] && toks[0].Lit? && MatchFrom(toks, s, i).Some?
    ensures i + |toks[0].text| <= |s| && StepsTo(toks, s, i, i + |toks[0].text|)
  {
  }

  lemma StepBlank(toks: seq<Token>, s: string, i: nat)
    requires i <= |s| && toks != [] && toks[0].Blank? && MatchFrom(toks, s, i).Some?
    ensures StepsTo(toks, s, i, i + Span(s, i, Spaces))
  {
    var n := Span(s, i, Spaces);
    var u := s[i..i + n];
    assert forall m :: 0 <= m < n ==> u[m] == s[i + m];
  }

  lemma StepNumber(toks: seq<Token>, s: string, i: nat)
    requires i <= |s| && toks != [] && toks[0].Number? && MatchFrom(toks, s, i).Some?
    ensures StepsTo(toks, s, i, i + Span(s, i, Digits))
  {
    var n := Span(s, i, Digits);
    DigitsSlice(s, i, i + n);
  }

  lemma StepDecimal(toks: seq<Token>, s: string, i: nat)
    requires i <= |s| && toks != [] && toks[0].Decimal? && MatchFrom(toks, s, i).Some?
    ensures DecimalEnd(s, i).Some? && StepsTo(toks, s, i, DecimalEnd(s, i).value)
  {
    DecimalEndSyntax(s, i);
  }

  lemma GroupsFitCons(toks: seq<Token>, g: string, gs: seq<string>)
    requires toks != [] && (toks[0].Number? || toks[0].Decimal?)
    requires Fits(toks[0], g) && GroupsFit(toks[1..], gs)
    ensures GroupsFit(toks, [g] + gs)
  {
    assert Capturing(toks) == [toks[0]] + Capturing(toks[1..]);
    assert forall k :: 0 < k <= |gs| ==> ([g] + gs)[k] == gs[k - 1];
  }

  lemma GroupsFitSkip(toks: seq<Token>, gs: seq<string>)
    requires toks != [] && (toks[0].Lit? || toks[0].Blank?)
    requires GroupsFit(toks[1..], gs)
    ensures GroupsFit(toks, gs)
  {
    assert Capturing(toks) == Capturing(toks[1..]);
  }

  /** Everything the greedy reader reports is a match of the regular expression. */
  lemma {:induction false} MatchFromSound(toks: seq<Token>, s: string, i: nat)
    requires i <= |s| && MatchFrom(toks, s, i).Some?
    ensures Matches(toks, s[i..MatchFrom(toks, s, i).value.end], MatchFrom(toks, s, i).value.groups)
    decreases |toks|
  {
    if toks != [] {
      MatchFromSound(toks[1..], s, RestStart(toks, s, i));
      SoundStep(toks, s, i);
    }
  }

  /** A match of the rest, behind what the first token read, is a match of the whole. */
  lemma SoundStep(toks: seq<Token>, s: string, i: nat)
    requires i <= |s| && toks != [] && MatchFrom(toks, s, i).Some?
    requires var j := RestStart(toks, s, i);
      Matches(toks[1..], s[j..MatchFrom(toks[1..], s, j).value.end], MatchFrom(toks[1..], s, j).value.groups)
    ensures Matches(toks, s[i..MatchFrom(toks, s, i).value.end], MatchFrom(toks, s, i).value.groups)
  {
    var j := RestStart(toks, s, i);
    var h := MatchFrom(toks, s, i).value;
    var r := MatchFrom(toks[1..], s, j).value;
    assert StepsTo(toks, s, i, j);
    assert h.end == r.end && j <= r.end;
    if toks[0].Number? || toks[0].Decimal? {
      assert h.groups == [s[i..j]] + r.groups;
      assert h.groups[1..] == r.groups;
    }
    MatchesAt(toks, s, i, j, h.end, h.groups);
  }

  /** `MatchesCons` on a text given by its bounds in `s`. */
  lemma MatchesAt(toks: seq<Token>, s: string, i: nat, j: nat, e: nat, groups: seq<string>)
    requires toks != [] && i <= j <= e <= |s| && Fits(toks[0], s[i..j])
    requires toks[0].Number? || toks[0].Decimal? ==>
      groups != [] && groups[0] == s[i..j] && Matches(toks[1..], s[j..e], groups[1..])
    requires toks[0].Lit? || toks[0].Blank? ==> Matches(toks[1..], s[j..e], groups)
    ensures Matches(toks, s[i..e], groups)
  {
    var t := s[i..e];
    assert forall m :: 0 <= m < |t| ==> t[m] == s[i + m];
    assert t[..j - i] == s[i..j];
    assert t[j - i..] == s[j..e];
    MatchesCons(toks, t, j - i, groups);
  }

  /** A text the first token accepts, followed by a match of the rest, is a
      match of the whole; a capturing token's text leads the groups. */
  lemma MatchesCons(toks: seq<Token>, t: string, k: nat, groups: seq<string>)
    requires toks != [] && k <= |t| && Fits(toks[0], t[..k])
    requires toks[0].Number? || toks[0].Decimal? ==>
      groups != [] && groups[0] == t[..k] && Matches(toks[1..], t[k..], groups[1..])
    requires toks[0].Lit? || toks[0].Blank? ==> Matches(toks[1..], t[k..], groups)
    ensures Matches(toks, t, groups)
  {
    match toks[0]
    case Lit(x) =>
    case Blank =>
      assert 0 < k <= |t| && AllSpace(t[..k]) && Matches(toks[1..], t[k..], groups);
    case Number =>
      assert 0 < k <= |t| && groups[0] == t[..k] && AllDigits(t[..k]) && Matches(toks[1..], t[k..], groups[1..]);
    case Decimal =>
      var u := t[..k];
      var d :| 0 < d < |u| - 1 && u[d] == '.' && AllDigits(u[..d]) && AllDigits(u[d + 1..]);
      assert 0 < k <= |t| && groups[0] == t[..k] && DecimalSyntax(t[..k]) && Matches(toks[1..], t[k..], groups[1..]);
  }

  /** A non-empty text accepted by a deterministic pattern starts the way its
      first token allows. */
  lemma FirstCharacter(toks: seq<Token>, t: string, groups: seq<string>)
    requires toks != [] && Deterministic(toks) && Matches(toks, t, groups)
    ensures t != [] && MayStart(toks[0], t[0])
  {
    match toks[0]
    case Lit(x) =>
      assert x != [];
      assert t[..|x|][0] == t[0];
    case Blank =>
      var k :| 0 < k <= |t| && AllSpace(t[..k]) && Matches(toks[1..], t[k..], groups);
      assert t[..k][0] == t[0];
    case Number =>
      var k :| 0 < k <= |t| && groups[0] == t[..k] && AllDigits(t[..k]) && Matches(toks[1..], t[k..], groups[1..]);
      assert t[..k][0] == t[0];
    case Decimal =>
      var k :| 0 < k <= |t| && groups[0] == t[..k] && DecimalSyntax(t[..k]) && Matches(toks[1..], t[k..], groups[1..]);
      var u := t[..k];
      var d :| 0 < d < |u| - 1 && u[d] == '.' && AllDigits(u[..d]) && AllDigits(u[d + 1..]);
      assert u[..d][0] == t[0];
  }

  lemma DeterministicTail(toks: seq<Token>)
    requires toks != [] && Deterministic(toks)
    ensures Deterministic(toks[1..])
  {
    forall j | 0 <= j < |toks| - 2
      ensures Separated(toks[1..][j], toks[1..][j + 1])
    {
      assert toks[1..][j] == toks[j + 1] && toks[1..][j + 1] == toks[j + 2];
    }
  }

  /** Whenever the regular expression accepts some text at `i`, the greedy
      reader succeeds there too, and ends no earlier: greedy reading of a
      deterministic pattern loses no match and reports the longest one. */
  lemma {:induction false} MatchFromComplete(toks: seq<Token>, s: string, i: nat, e: nat, groups: seq<string>)
    requires Deterministic(toks)
    requires i <= e <= |s| && Matches(toks, s[i..e], groups)
    ensures MatchFrom(toks, s, i).Some? && e <= MatchFrom(toks, s, i).value.end
    decreases |toks|
  {
    if toks != [] {
      var j, rest := CompleteStep(toks, s, i, e, groups);
      DeterministicTail(toks);
      MatchFromComplete(toks[1..], s, j, e, rest);
    }
  }

  /** If the greedy reader reads the rest of the pattern from `j` through
      `e`, it reads the whole pattern from `i` through `e`. */
  ghost predicate Closes(toks: seq<Token>, s: string, i: nat, e: nat, j: nat)
    requires toks != [] && i <= j <= e <= |s|
  {
    Reaches(MatchFrom(toks[1..], s, j), e) ==> Reaches(MatchFrom(toks, s, i), e)
  }

  /** A reading that succeeds and gets at least as far as `e`. */
  ghost predicate Reaches(r: Option<Hit>, e: nat) {
    r.Some? && e <= r.value.end
  }

  /** The first token of an accepted text takes what the greedy reader takes,
      and the rest of the text is accepted by the rest of the pattern. */
  lemma CompleteStep(toks: seq<Token>, s: string, i: nat, e: nat, groups: seq<string>) returns (j: nat, rest: seq<string>)
    requires Deterministic(toks) && toks != []
    requires i <= e <= |s| && Matches(toks, s[i..e], groups)
    ensures i <= j <= e && Matches(toks[1..], s[j..e], rest) && Closes(toks, s, i, e, j)
  {
    if toks[0].Lit? {
      j, rest := LiteralStep(toks, s, i, e, groups);
    } else if toks[0].Decimal? {
      j, rest := DecimalStep(toks, s, i, e, groups);
    } else {
      j, rest := RunStep(toks, s, i, e, groups);
    }
  }

  lemma LiteralStep(toks: seq<Token>, s: string, i: nat, e: nat, groups: seq<string>) returns (j: nat, rest: seq<string>)
    requires toks != [] && toks[0].Lit?
    requires i <= e <= |s| && Matches(toks, s[i..e], groups)
    ensures i <= j <= e && Matches(toks[1..], s[j..e], rest) && Closes(toks, s, i, e, j)
  {
    CompleteLiteral(toks, s, i, e, groups);
    j, rest := i + |toks[0].text|, groups;
  }

  lemma RunStep(toks: seq<Token>, s: string, i: nat, e: nat, groups: seq<string>) returns (j: nat, rest: seq<string>)
    requires Deterministic(toks) && toks != [] && (toks[0].Blank? || toks[0].Number?)
    requires i <= e <= |s| && Matches(toks, s[i..e], groups)
    ensures i <= j <= e && Matches(toks[1..], s[j..e], rest) && Closes(toks, s, i, e, j)
  {
    var k := CompleteRun(toks, s, i, e, groups);
    j, rest := i + k, RestGroups(toks[0], groups);
    CloseRun(toks, s, i, e, j);
  }

  lemma DecimalStep(toks: seq<Token>, s: string, i: nat, e: nat, groups: seq<string>) returns (j: nat, rest: seq<string>)
    requires Deterministic(toks) && toks != [] && toks[0].Decimal?
    requires i <= e <= |s| && Matches(toks, s[i..e], groups)
    ensures i <= j <= e && Matches(toks[1..], s[j..e], rest) && Closes(toks, s, i, e, j)
  {
    var k := CompleteDecimal(toks, s, i, e, groups);
    j, rest := i + k, groups[1..];
    DecimalReads(toks, s, i);
    CloseAfter(toks, s, i, e, j, DecimalEnd(s, i).value);
  }

  /** Where a reading ends, if it succeeds. */
  function EndOf(r: Option<Hit>): Option<nat> {
    if r.Some? then Some(r.value.end) else None
  }

  /** The greedy reading of a run token, given how the rest of the pattern reads. */
  lemma CloseRun(toks: seq<Token>, s: string, i: nat, e: nat, j: nat)
    requires toks != [] && (toks[0].Blank? || toks[0].Number?)
    requires i < j <= e <= |s| && j <= i + Span(s, i, ClassOf(toks[0]))
    requires toks[1..] != [] ==> i + Span(s, i, ClassOf(toks[0])) == j
    requires toks[1..] == [] ==> j == e
    ensures Closes(toks, s, i, e, j)
  {
    var n := RunReads(toks, s, i);
    CloseAfter(toks, s, i, e, j, n);
  }

  /** A run token takes its whole run, then the rest of the pattern reads on. */
  lemma RunReads(toks: seq<Token>, s: string, i: nat) returns (n: nat)
    requires toks != [] && (toks[0].Blank? || toks[0].Number?)
    requires i <= |s| && Span(s, i, ClassOf(toks[0])) > 0
    ensures n == i + Span(s, i, ClassOf(toks[0])) <= |s|
    ensures EndOf(MatchFrom(toks, s, i)) == EndOf(MatchFrom(toks[1..], s, n))
  {
    if toks[0].Blank? {
      n := i + Span(s, i, Spaces);
      assert MatchFrom(toks, s, i) == MatchFrom(toks[1..], s, n);
    } else {
      n := i + Span(s, i, Digits);
      assert MatchFrom(toks, s, i) == Prepend(s[i..n], MatchFrom(toks[1..], s, n));
    }
  }

  /** A decimal token takes its greedy decimal, then the rest of the pattern reads on. */
  lemma DecimalReads(toks: seq<Token>, s: string, i: nat)
    requires toks != [] && toks[0].Decimal?
    requires i <= |s| && DecimalEnd(s, i).Some?
    ensures EndOf(MatchFrom(toks, s, i)) == EndOf(MatchFrom(toks[1..], s, DecimalEnd(s, i).value))
  {
    var d := DecimalEnd(s, i).value;
    assert MatchFrom(toks, s, i) == Prepend(s[i..d], MatchFrom(toks[1..], s, d));
  }

  /** Where the first token's greedy reading hands over at `n` and the rest
      is read from `j`: either the rest is the same reading (`j == n`), or
      the pattern ends there and `j` is the end. */
  lemma CloseAfter(toks: seq<Token>, s: string, i: nat, e: nat, j: nat, n: nat)
    requires toks != [] && i <= j <= e <= |s| && j <= n <= |s|
    requires EndOf(MatchFrom(toks, s, i)) == EndOf(MatchFrom(toks[1..], s, n))
    requires toks[1..] != [] ==> j == n
    requires toks[1..] == [] ==> j == e
    ensures Closes(toks, s, i, e, j)
  {
    if toks[1..] == [] {
      assert MatchFrom(toks[1..], s, n) == Some(Hit(n, []));
    }
    ReachesAfter(MatchFrom(toks, s, i), MatchFrom(toks[1..], s, j), MatchFrom(toks[1..], s, n), e);
  }

  lemma ReachesAfter(whole: Option<Hit>, atJ: Option<Hit>, atN: Option<Hit>, e: nat)
    requires EndOf(whole) == EndOf(atN)
    requires atJ == atN || Reaches(atN, e)
    ensures Reaches(atJ, e) ==> Reaches(whole, e)
  {
  }

  lemma CompleteLiteral(toks: seq<Token>, s: string, i: nat, e: nat, groups: seq<string>)
    requires toks != [] && toks[0].Lit?
    requires i <= e <= |s| && Matches(toks, s[i..e], groups)
    ensures LiteralAt(s, i, toks[0].text) && i + |toks[0].text| <= e
    ensures Matches(toks[1..], s[i + |toks[0].text|..e], groups)
  {
    var x := toks[0].text;
    var t := s[i..e];
    assert s[i..i + |x|] == t[..|x|];
    assert t[|x|..] == s[i + |x|..e];
  }

  function ClassOf(tok: Token): CharClass
    requires tok.Blank? || tok.Number?
  {
    if tok.Blank? then Spaces else Digits
  }

  /** The groups a match of the rest of the pattern captures after the first token's. */
  function RestGroups(tok: Token, groups: seq<string>): seq<string>
    requires (tok.Number? || tok.Decimal?) ==> groups != []
  {
    if tok.Number? || tok.Decimal? then groups[1..] else groups
  }

  /** The first step of an accepted text, for a run token. */
  lemma UnfoldRun(toks: seq<Token>, t: string, groups: seq<string>) returns (k: nat)
    requires toks != [] && (toks[0].Blank? || toks[0].Number?) && Matches(toks, t, groups)
    ensures 0 < k <= |t|
    ensures forall m :: 0 <= m < k ==> InClass(t[m], ClassOf(toks[0]))
    ensures toks[0].Number? ==> groups != []
    ensures Matches(toks[1..], t[k..], RestGroups(toks[0], groups))
  {
    if toks[0].Blank? {
      k :| 0 < k <= |t| && AllSpace(t[..k]) && Matches(toks[1..], t[k..], groups);
      assert forall m :: 0 <= m < k ==> t[..k][m] == t[m];
    } else {
      k :| 0 < k <= |t| && groups[0] == t[..k] && AllDigits(t[..k]) && Matches(toks[1..], t[k..], groups[1..]);
      assert forall m :: 0 <= m < k ==> t[..k][m] == t[m];
    }
  }

  /** The first step of an accepted text, for a decimal token. */
  lemma UnfoldDecimal(toks: seq<Token>, s: string, i: nat, e: nat, groups: seq<string>) returns (k: nat)
    requires toks != [] && toks[0].Decimal?
    requires i <= e <= |s| && Matches(toks, s[i..e], groups)
    ensures 0 < k && i + k <= e && DecimalSyntax(s[i..i + k]) && groups != []
    ensures Matches(toks[1..], s[i + k..e], groups[1..])
  {
    var t := s[i..e];
    k :| 0 < k <= |t| && groups[0] == t[..k] && DecimalSyntax(t[..k]) && Matches(toks[1..], t[k..], groups[1..]);
    SliceAt(s, i, e, k);
  }

  /** The two parts of `s[i..e]` cut at `k`, as slices of `s`. */
  lemma SliceAt(s: string, i: nat, e: nat, k: nat)
    requires i <= e <= |s| && k <= e - i
    ensures s[i..e][..k] == s[i..i + k] && s[i..e][k..] == s[i + k..e]
  {
  }

  /** In an accepted text, whatever follows the first token's part begins
      as the next token may begin, so the first token could not go on. */
  lemma NextStart(toks: seq<Token>, s: string, j: nat, e: nat, rest: seq<string>)
    requires Deterministic(toks) && toks != []
    requires j <= e <= |s| && Matches(toks[1..], s[j..e], rest)
    ensures toks[1..] != [] ==> j < e && Separated(toks[0], toks[1]) && MayStart(toks[1], s[j])
  {
    if toks[1..] != [] {
      DeterministicTail(toks);
      FirstCharacter(toks[1..], s[j..e], rest);
      assert s[j] == s[j..e][0];
    }
  }

  /** A run of `k` characters of the class, followed by a character the next
      token may begin with, is the whole run the greedy reader takes. */
  lemma RunStop(toks: seq<Token>, s: string, i: nat, k: nat)
    requires toks != [] && (toks[0].Blank? || toks[0].Number?)
    requires i + k <= |s| && forall m :: i <= m < i + k ==> InClass(s[m], ClassOf(toks[0]))
    requires toks[1..] != [] ==> i + k < |s| && Separated(toks[0], toks[1]) && MayStart(toks[1], s[i + k])
    ensures k <= Span(s, i, ClassOf(toks[0]))
    ensures toks[1..] != [] ==> Span(s, i, ClassOf(toks[0])) == k
  {
    SpanAtLeast(s, i, k, ClassOf(toks[0]));
    if toks[1..] != [] {
      SpanExact(s, i, k, ClassOf(toks[0]));
    }
  }

  /** A decimal at `i` ending at `j`, followed by a character the next token
      may begin with, is the decimal the greedy reader takes. */
  lemma DecimalStop(toks: seq<Token>, s: string, i: nat, j: nat)
    requires toks != [] && toks[0].Decimal?
    requires i <= j <= |s| && DecimalSyntax(s[i..j])
    requires toks[1..] != [] ==> j < |s| && Separated(toks[0], toks[1]) && MayStart(toks[1], s[j])
    ensures DecimalEnd(s, i).Some? && j <= DecimalEnd(s, i).value
    ensures toks[1..] != [] ==> DecimalEnd(s, i) == Some(j)
  {
    DecimalEndLongest(s, i, j);
  }

  /** The run a `\s+` or `(\d+)` token takes in an accepted text is all the
      greedy reader takes, unless it is the last token. */
  lemma CompleteRun(toks: seq<Token>, s: string, i: nat, e: nat, groups: seq<string>) returns (k: nat)
    requires Deterministic(toks) && toks != [] && (toks[0].Blank? || toks[0].Number?)
    requires i <= e <= |s| && Matches(toks, s[i..e], groups)
    ensures 0 < k <= Span(s, i, ClassOf(toks[0])) && i + k <= e
    ensures toks[1..] != [] ==> Span(s, i, ClassOf(toks[0])) == k
    ensures toks[1..] == [] ==> i + k == e
    ensures toks[0].Number? ==> groups != []
    ensures Matches(toks[1..], s[i + k..e], RestGroups(toks[0], groups))
  {
    var t := s[i..e];
    k := UnfoldRun(toks, t, groups);
    assert forall m :: i <= m < i + k ==> s[m] == t[m - i];
    assert t[k..] == s[i + k..e];
    NextStart(toks, s, i + k, e, RestGroups(toks[0], groups));
    RunStop(toks, s, i, k);
  }

  /** The decimal a `(\d+\.\d+)` token takes in an accepted text is the one
      the greedy reader takes, unless it is the last token. */
  lemma CompleteDecimal(toks: seq<Token>, s: string, i: nat, e: nat, groups: seq<string>) returns (k: nat)
    requires Deterministic(toks) && toks != [] && toks[0].Decimal?
    requires i <= e <= |s| && Matches(toks, s[i..e], groups)
    ensures DecimalEnd(s, i).Some? && i + k <= DecimalEnd(s, i).value && i + k <= e
    ensures toks[1..] != [] ==> DecimalEnd(s, i) == Some(i + k)
    ensures toks[1..] == [] ==> i + k == e
    ensures groups != [] && Matches(toks[1..], s[i + k..e], groups[1..])
  {
    k := UnfoldDecimal(toks, s, i, e, groups);
    NextStart(toks, s, i + k, e, groups[1..]);
    DecimalStop(toks, s, i, i + k);
  }

  // ---------------------------------------------------------------------
  // re.findall

  datatype Found = Found(start: nat, end: nat, groups: seq<string>)

  /** A match at position `j` that the scan did not step over. */
  ghost predicate Covered(ms: seq<Found>, j: int) {
    exists k :: 0 <= k < |ms| && ms[k].start <= j < ms[k].end
  }

  /** `ms` is what `re.findall` collects from position `i` on: every entry is
      the match found at its start, entries are in order and do not
      overlap, and every position not inside an entry holds no match. */
  ghost predicate Scanned(toks: seq<Token>, s: string, i: nat, ms: seq<Found>) {
    && (forall k :: 0 <= k < |ms| ==>
          i <= ms[k].start < ms[k].end <= |s| &&
          MatchFrom(toks, s, ms[k].start) == Some(Hit(ms[k].end, ms[k].groups)))
    && (forall k :: 0 <= k < |ms| - 1 ==> ms[k].end <= ms[k + 1].start)
    && (forall j :: i <= j <= |s| && !Covered(ms, j) ==> MatchFrom(toks, s, j).None?)
  }

  function FindAllFrom(toks: seq<Token>, s: string, i: nat): (ms: seq<Found>)
    requires Anchored(toks) && i <= |s|
    ensures Scanned(toks, s, i, ms)
    decreases |s| - i
  {
    if i == |s| then
      assert MatchFrom(toks, s, i).None?;
      []
    else match MatchFrom(toks, s, i)
      case None =>
        var ms := FindAllFrom(toks, s, i + 1);
        ScanSkips(toks, s, i, ms);
        ms
      case Some(h) =>
        var rest := FindAllFrom(toks, s, h.end);
        ScanTakes(toks, s, i, h, rest);
        [Found(i, h.end, h.groups)] + rest
  }

  /** No match at `i`: the scan goes on from `i + 1`. */
  lemma ScanSkips(toks: seq<Token>, s: string, i: nat, ms: seq<Found>)
    requires i < |s| && MatchFrom(toks, s, i).None? && Scanned(toks, s, i + 1, ms)
    ensures Scanned(toks, s, i, ms)
  {
  }

  /** A match at `i`: it is collected and the scan resumes where it ends. */
  lemma ScanTakes(toks: seq<Token>, s: string, i: nat, h: Hit, rest: seq<Found>)
    requires i < h.end <= |s| && MatchFrom(toks, s, i) == Some(h) && Scanned(toks, s, h.end, rest)
    ensures Scanned(toks, s, i, [Found(i, h.end, h.groups)] + rest)
  {
    var ms := [Found(i, h.end, h.groups)] + rest;
    TakenEntries(toks, s, i, h, rest, ms);
    TakenOrdered(toks, s, h, rest, ms);
    TakenRest(toks, s, i, h, rest, ms);
  }

  lemma TakenEntries(toks: seq<Token>, s: string, i: nat, h: Hit, rest: seq<Found>, ms: seq<Found>)
    requires i < h.end <= |s| && MatchFrom(toks, s, i) == Some(h) && Scanned(toks, s, h.end, rest)
    requires ms == [Found(i, h.end, h.groups)] + rest
    ensures forall k :: 0 <= k < |ms| ==>
      i <= ms[k].start < ms[k].end <= |s| &&
      MatchFrom(toks, s, ms[k].start) == Some(Hit(ms[k].end, ms[k].groups))
  {
    forall k | 0 <= k < |ms|
      ensures i <= ms[k].start < ms[k].end <= |s|
      ensures MatchFrom(toks, s, ms[k].start) == Some(Hit(ms[k].end, ms[k].groups))
    {
      if k > 0 {
        assert ms[k] == rest[k - 1];
      }
    }
  }

  lemma TakenOrdered(toks: seq<Token>, s: string, h: Hit, rest: seq<Found>, ms: seq<Found>)
    requires Scanned(toks, s, h.end, rest)
    requires ms != [] && ms[0].end == h.end && ms[1..] == rest
    ensures forall k :: 0 <= k < |ms| - 1 ==> ms[k].end <= ms[k + 1].start
  {
    forall k | 0 <= k < |ms| - 1
      ensures ms[k].end <= ms[k + 1].start
    {
      if k > 0 {
        assert ms[k] == rest[k - 1] && ms[k + 1] == rest[k];
      } else {
        assert ms[1] == rest[0];
      }
    }
  }

  lemma TakenRest(toks: seq<Token>, s: string, i: nat, h: Hit, rest: seq<Found>, ms: seq<Found>)
    requires i < h.end <= |s| && Scanned(toks, s, h.end, rest)
    requires ms == [Found(i, h.end, h.groups)] + rest
    ensures forall j :: i <= j <= |s| && !Covered(ms, j) ==> MatchFrom(toks, s, j).None?
  {
    assert ms[1..] == rest;
    TakenCovered(ms, rest, h.end);
  }

  /** The positions the first entry spans, and those any later entry spans,
      are covered. */
  lemma TakenCovered(ms: seq<Found>, rest: seq<Found>, end: nat)
    requires ms != [] && ms[1..] == rest && ms[0].end == end
    ensures forall j :: ms[0].start <= j < end ==> Covered(ms, j)
    ensures forall j :: Covered(rest, j) ==> Covered(ms, j)
  {
    forall j | ms[0].start <= j < end
      ensures Covered(ms, j)
    {
      assert ms[0].start <= j < ms[0].end;
    }
    forall j | Covered(rest, j)
      ensures Covered(ms, j)
    {
      var k :| 0 <= k < |rest| && rest[k].start <= j < rest[k].end;
      assert ms[k + 1] == rest[k];
    }
  }

  /** `re.findall(pattern, s)`, keeping where each match lies. */
  function FindAll(toks: seq<Token>, s: string): (ms: seq<Found>)
    requires Anchored(toks)
    ensures Scanned(toks, s, 0, ms)
  {
    FindAllFrom(toks, s, 0)
  }

  /** What `re.findall` returns: the captured groups of each match, in order. */
  function Captures(ms: seq<Found>): (gs: seq<seq<string>>)
    ensures |gs| == |ms|
    ensures forall k :: 0 <= k < |ms| ==> gs[k] == ms[k].groups
  {
    seq(|ms|, k requires 0 <= k < |ms| => ms[k].groups)
  }

  /** The greedy reader at `i` succeeds exactly when the regular expression
      accepts some text starting at `i`. */
  lemma GreedyAgreesWithRegex(toks: seq<Token>, s: string, i: nat)
    requires Deterministic(toks) && i <= |s|
    ensures MatchFrom(toks, s, i).Some? <==> exists e, g :: i <= e <= |s| && Matches(toks, s[i..e], g)
  {
    if MatchFrom(toks, s, i).Some? {
      GreedyWitness(toks, s, i);
    } else {
      GreedyNoWitness(toks, s, i);
    }
  }

  lemma GreedyWitness(toks: seq<Token>, s: string, i: nat)
    requires i <= |s| && MatchFrom(toks, s, i).Some?
    ensures exists e, g :: i <= e <= |s| && Matches(toks, s[i..e], g)
  {
    MatchFromSound(toks, s, i);
    var h := MatchFrom(toks, s, i).value;
    assert Matches(toks, s[i..h.end], h.groups);
  }

  lemma GreedyNoWitness(toks: seq<Token>, s: string, i: nat)
    requires Deterministic(toks) && i <= |s| && MatchFrom(toks, s, i).None?
    ensures forall e, g :: i <= e <= |s| ==> !Matches(toks, s[i..e], g)
  {
    forall e, g | i <= e <= |s| && Matches(toks, s[i..e], g)
      ensures false
    {
      MatchFromComplete(toks, s, i, e, g);
    }
  }

  /** Every match `re.findall` collects has one group per capturing token, of its shape. */
  lemma FoundGroupsFit(toks: seq<Token>, s: string, i: nat, ms: seq<Found>)
    requires Scanned(toks, s, i, ms)
    ensures forall k :: 0 <= k < |ms| ==> GroupsFit(toks, ms[k].groups)
  {
    forall k | 0 <= k < |ms|
      ensures GroupsFit(toks, ms[k].groups)
    {
      MatchFromGroups(toks, s, ms[k].start);
    }
  }

  /** `re.findall` finds nothing exactly when no position holds a match. */
  lemma FindAllEmpty(toks: seq<Token>, s: string)
    requires Anchored(toks)
    ensures FindAll(toks, s) == [] <==> forall j :: 0 <= j <= |s| ==> MatchFrom(toks, s, j).None?
  {
    var ms := FindAll(toks, s);
    if ms != [] {
      var k := ms[0].start;
      assert 0 <= k <= |s| && MatchFrom(toks, s, k) == Some(Hit(ms[0].end, ms[0].groups));
      assert MatchFrom(toks, s, k).Some?;
      assert !(forall j :: 0 <= j <= |s| ==> MatchFrom(toks, s, j).None?);
      assert FindAll(toks, s) != [];
    } else {
      forall j | 0 <= j <= |s|
        ensures MatchFrom(toks, s, j).None?
      {
        assert !Covered(ms, j);
      }
    }
  }

  /** The run of digits at `p` is followed by a decimal point. */
  predicate PointAfterDigits(s: string, p: nat) {
    p <= |s| && p + Span(s, p, Digits) < |s| && s[p + Span(s, p, Digits)] == '.'
  }

  /** A pattern that reads a decimal right after its opening literal finds
      nothing where no occurrence of that literal is followed by digits and
      a point: integer timestamps such as `black_start:5 ` are never matched. */
  lemma NoPointNoMatch(toks: seq<Token>, s: string)
    requires Anchored(toks) && |toks| >= 2 && toks[1].Decimal?
    requires forall j :: 0 <= j <= |s| && LiteralAt(s, j, toks[0].text) ==>
      !PointAfterDigits(s, j + |toks[0].text|)
    ensures FindAll(toks, s) == []
  {
    var ms := FindAll(toks, s);
    if ms != [] {
      MatchNeedsPoint(toks, s, ms[0].start);
    }
  }

  /** Where such a pattern matches, its literal is there and the digits after
      it run into a point. */
  lemma MatchNeedsPoint(toks: seq<Token>, s: string, i: nat)
    requires |toks| >= 2 && toks[0].Lit? && toks[1].Decimal?
    requires i <= |s| && MatchFrom(toks, s, i).Some?
    ensures LiteralAt(s, i, toks[0].text) && PointAfterDigits(s, i + |toks[0].text|)
  {
    var x := toks[0].text;
    assert MatchFrom(toks, s, i) == MatchFrom(toks[1..], s, i + |x|);
  }

  lemma CapturingOfPatterns()
    ensures Capturing(BlackPattern) == [Decimal, Decimal, Decimal]
    ensures Capturing(PtsPattern) == [Decimal]
    ensures Capturing(SizePattern) == [Number]
  {
  }

  /** The first entry `re.findall` reports is the leftmost match. */
  lemma FirstIsLeftmost(toks: seq<Token>, s: string, i: nat, ms: seq<Found>)
    requires Scanned(toks, s, i, ms) && ms != []
    ensures forall j :: i <= j < ms[0].start ==> MatchFrom(toks, s, j).None?
  {
    forall j | i <= j < ms[0].start
      ensures !Covered(ms, j)
    {
      forall k | 0 <= k < |ms|
        ensures ms[0].start <= ms[k].start
      {
        LaterStartsLater(ms, k);
      }
    }
  }

  lemma {:induction false} LaterStartsLater(ms: seq<Found>, k: nat)
    requires k < |ms|
    requires forall k :: 0 <= k < |ms| ==> ms[k].start < ms[k].end
    requires forall k :: 0 <= k < |ms| - 1 ==> ms[k].end <= ms[k + 1].start
    ensures ms[0].start <= ms[k].start
  {
    if k > 0 {
      LaterStartsLater(ms, k - 1);
    }
  }
}

=== FILE: text.dfy ===
/**
 The character-level primitives the decoders are built on: Python's notions
 of digit, white space and line boundary, `str.strip()`, `str.split(sep)`,
 `str.splitlines()`, `float(text)` and fixed-point formatting, stated over
 `string` and exact `real` values.
 */
module Text {
  import opened Options

  /** `\d`, restricted to the ASCII digits. */
  predicate IsDigit(c: char) {
    '0' <= c <= '9'
  }

  /** `str.isspace()`: what `\s`, `strip()` and `float()` treat as white space. */
  predicate IsSpace(c: char) {
    || c == ' ' || '\t' <= c <= '\r' || '\U{1C}' <= c <= '\U{1F}'
    || c == '\U{85}' || c == '\U{A0}' || c == '\U{1680}'
    || '\U{2000}' <= c <= '\U{200A}' || c == '\U{2028}' || c == '\U{2029}'
    || c == '\U{202F}' || c == '\U{205F}' || c == '\U{3000}'
  }

  /** The line boundaries of `str.splitlines()`; a `\r\n` pair counts as one. */
  predicate IsLineBreak(c: char) {
    || c == '\n' || c == '\r' || c == '\U{0B}' || c == '\U{0C}'
    || '\U{1C}' <= c <= '\U{1E}' || c == '\U{85}' || c == '\U{2028}' || c == '\U{2029}'
  }

  predicate AllDigits(s: string) {
    forall i :: 0 <= i < |s| ==> IsDigit(s[i])
  }

  predicate AllSpace(s: string) {
    forall i :: 0 <= i < |s| ==> IsSpace(s[i])
  }

  predicate NoBreak(s: string) {
    forall i :: 0 <= i < |s| ==> !IsLineBreak(s[i])
  }

  datatype CharClass = Digits | Spaces

  predicate InClass(c: char, cls: CharClass) {
    match cls
    case Digits => IsDigit(c)
    case Spaces => IsSpace(c)
  }

  /** The length of the longest run of `cls` characters starting at `i`:
      what a greedy `\d+` or `\s+` consumes there. */
  function Span(s: string, i: nat, cls: CharClass): (n: nat)
    requires i <= |s|
    ensures i + n <= |s|
    ensures forall k :: i <= k < i + n ==> InClass(s[k], cls)
    ensures i + n == |s| || !InClass(s[i + n], cls)
    decreases |s| - i
  {
    if i < |s| && InClass(s[i], cls) then 1 + Span(s, i + 1, cls) else 0
  }

  /** The position of the first `c` in `s`, or `|s|` when there is none. */
  function IndexOf(s: string, c: char): (k: nat)
    ensures k <= |s|
    ensures c !in s[..k]
    ensures k < |s| ==> s[k] == c
    decreases |s|
  {
    if s == [] then 0
    else if s[0] == c then 0
    else
      var k := 1 + IndexOf(s[1..], c);
      assert s[..k] == [s[0]] + s[1..][..k - 1];
      k
  }

  /** The position of the first line boundary in `s`, or `|s|`. */
  function BreakIndex(s: string): (k: nat)
    ensures k <= |s|
    ensures NoBreak(s[..k])
    ensures k < |s| ==> IsLineBreak(s[k])
    decreases |s|
  {
    if s == [] then 0
    else if IsLineBreak(s[0]) then 0
    else 1 + BreakIndex(s[1..])
  }

  function Pow10(n: nat): (p: nat)
    ensures p >= 1
  {
    if n == 0 then 1 else 10 * Pow10(n - 1)
  }

  function DigitValue(c: char): (d: nat)
    requires IsDigit(c)
    ensures d <= 9
  {
    c as int - '0' as int
  }

  /** The number a string of decimal digits denotes, most significant first. */
  function DigitsValue(d: string): (v: nat)
    requires AllDigits(d)
    ensures v < Pow10(|d|)
    decreases |d|
  {
    if d == [] then 0
    else
      var prefix := DigitsValue(d[..|d| - 1]);
      assert prefix + 1 <= Pow10(|d| - 1);
      prefix * 10 + DigitValue(d[|d| - 1])
  }

  // ---------------------------------------------------------------------
  // strip, split, splitlines

  /** The number of white-space characters at the end of `s`. */
  function TrailingSpaces(s: string): (n: nat)
    ensures n <= |s|
    ensures forall k :: |s| - n <= k < |s| ==> IsSpace(s[k])
    ensures n == |s| || !IsSpace(s[|s| - n - 1])
    decreases |s|
  {
    if s != [] && IsSpace(s[|s| - 1]) then 1 + TrailingSpaces(s[..|s| - 1]) else 0
  }

  /** `str.strip()`: `s` without its leading and trailing white space. */
  function Strip(s: string): (r: string)
    ensures r == [] || (!IsSpace(r[0]) && !IsSpace(r[|r| - 1]))
    ensures exists a :: 0 <= a <= |s| - |r| && r == s[a..a + |r|] && AllSpace(s[..a]) && AllSpace(s[a + |r|..])
  {
    var a := Span(s, 0, Spaces);
    SpanIsSpace(s, a);
    if a == |s| then
      assert s[a..a] == [] && s[a..] == [];
      []
    else
      var b := |s| - TrailingSpaces(s);
      TrailIsSpace(s, b);
      assert !IsSpace(s[a]);
      assert a < b;
      var r := s[a..b];
      assert r == s[a..a + |r|] && s[a + |r|..] == s[b..];
      r
  }

  lemma SpanIsSpace(s: string, a: nat)
    requires a == Span(s, 0, Spaces)
    ensures a <= |s| && AllSpace(s[..a])
  {
    assert forall k :: 0 <= k < a ==> s[..a][k] == s[k] && InClass(s[k], Spaces);
  }

  lemma TrailIsSpace(s: string, b: int)
    requires b == |s| - TrailingSpaces(s)
    ensures 0 <= b <= |s| && AllSpace(s[b..])
  {
    var t := s[b..];
    forall k | 0 <= k < |t|
      ensures IsSpace(t[k])
    {
      assert t[k] == s[b + k];
    }
  }

  /** The inverse of `Split`: the fields joined by `sep`. */
  function Join(fields: seq<string>, sep: char): string
    requires |fields| >= 1
  {
    if |fields| == 1 then fields[0] else fields[0] + [sep] + Join(fields[1..], sep)
  }

  /** `str.split(sep)` for a one-character separator: the maximal
      `sep`-free pieces of `s`, of which there is always at least one. */
  function Split(s: string, sep: char): (fields: seq<string>)
    ensures |fields| >= 1
    ensures forall k :: 0 <= k < |fields| ==> sep !in fields[k]
    ensures Join(fields, sep) == s
    ensures |fields| >= 2 <==> sep in s
    decreases |s|
  {
    var k := IndexOf(s, sep);
    if k == |s| then
      assert s[..k] == s;
      [s]
    else
      var rest := Split(s[k + 1..], sep);
      assert s == s[..k] + [sep] + s[k + 1..];
      assert ([s[..k]] + rest)[1..] == rest;
      [s[..k]] + rest
  }

  /** `s` with every line-boundary character removed. */
  function WithoutBreaks(s: string): string
    decreases |s|
  {
    if s == [] then []
    else (if IsLineBreak(s[0]) then [] else [s[0]]) + WithoutBreaks(s[1..])
  }

  function Concat(lines: seq<string>): string
    decreases |lines|
  {
    if lines == [] then [] else lines[0] + Concat(lines[1..])
  }

  lemma ConcatCons(line: string, rest: seq<string>)
    ensures Concat([line] + rest) == line + Concat(rest)
  {
    assert ([line] + rest)[1..] == rest;
  }

  lemma {:induction false} WithoutBreaksAppend(a: string, b: string)
    ensures WithoutBreaks(a + b) == WithoutBreaks(a) + WithoutBreaks(b)
    decreases |a|
  {
    if a == [] {
      assert a + b == b;
    } else {
      assert (a + b)[0] == a[0];
      assert (a + b)[1..] == a[1..] + b;
      WithoutBreaksAppend(a[1..], b);
    }
  }

  lemma {:induction false} WithoutBreaksOfLine(s: string)
    requires NoBreak(s)
    ensures WithoutBreaks(s) == s
    decreases |s|
  {
    if s != [] {
      WithoutBreaksOfLine(s[1..]);
      assert s == [s[0]] + s[1..];
    }
  }

  lemma {:induction false} WithoutBreaksOfBreaks(s: string)
    requires forall i :: 0 <= i < |s| ==> IsLineBreak(s[i])
    ensures WithoutBreaks(s) == []
    decreases |s|
  {
    if s != [] {
      WithoutBreaksOfBreaks(s[1..]);
    }
  }

  /** `str.splitlines()`: the lines of `s`, without their boundaries; a
      boundary at the very end does not open an empty last line. Every line
      is boundary-free and, read one after the other, the lines hold exactly
      the non-boundary characters of `s`, in order. */
  function SplitLines(s: string): (lines: seq<string>)
    ensures forall k :: 0 <= k < |lines| ==> NoBreak(lines[k])
    ensures Concat(lines) == WithoutBreaks(s)
    ensures s == [] <==> lines == []
    decreases |s|
  {
    var k := BreakIndex(s);
    if k == |s| then
      assert s[..k] == s;
      WithoutBreaksOfLine(s);
      if s == [] then [] else
        assert [s][1..] == [];
        [s]
    else
      var width := if s[k] == '\r' && k + 1 < |s| && s[k + 1] == '\n' then 2 else 1;
      var rest := SplitLines(s[k + width..]);
      LineThenRest(s, k, width, rest);
      [s[..k]] + rest
  }

  /** Every line boundary in `s` is a `\n`. */
  predicate OnlyNewlines(s: string) {
    forall i :: 0 <= i < |s| && IsLineBreak(s[i]) ==> s[i] == '\n'
  }

  /** `s` less one final `\n`, if it has one. */
  function Unterminated(s: string): string {
    if s != [] && s[|s| - 1] == '\n' then s[..|s| - 1] else s
  }

  /** Where the only line boundary is `\n`, the lines joined by `\n` give
      the text back, less a final `\n`: lines end exactly at the boundaries. */
  lemma {:induction false} SplitLinesJoin(s: string)
    requires s != [] && OnlyNewlines(s)
    ensures Join(SplitLines(s), '\n') == Unterminated(s)
    decreases |s|
  {
    var k := BreakIndex(s);
    if k == |s| {
      assert s[..k] == s;
    } else {
      FirstLine(s, k);
      var tail := s[k + 1..];
      if tail == [] {
        assert Unterminated(s) == s[..k];
      } else {
        OnlyNewlinesTail(s, k + 1);
        SplitLinesJoin(tail);
        JoinCons(s[..k], SplitLines(tail), '\n');
        JoinTail(s, k);
      }
    }
  }

  lemma OnlyNewlinesTail(s: string, k: nat)
    requires k <= |s| && OnlyNewlines(s)
    ensures OnlyNewlines(s[k..])
  {
    forall i | 0 <= i < |s[k..]| && IsLineBreak(s[k..][i]) ensures s[k..][i] == '\n' {
      assert s[k..][i] == s[k + i];
    }
  }

  /** At a `\n` boundary, the first line ends there and the rest follow. */
  lemma FirstLine(s: string, k: nat)
    requires k == BreakIndex(s) < |s| && s[k] == '\n'
    ensures SplitLines(s) == [s[..k]] + SplitLines(s[k + 1..])
  {
    assert s[k] != '\r';
  }

  lemma JoinCons(line: string, rest: seq<string>, sep: char)
    requires rest != []
    ensures Join([line] + rest, sep) == line + [sep] + Join(rest, sep)
  {
    assert ([line] + rest)[1..] == rest;
  }

  /** Gluing the first line back onto the rejoined remainder. */
  lemma JoinTail(s: string, k: nat)
    requires k + 1 < |s| && s[k] == '\n'
    ensures s[..k] + ['\n'] + Unterminated(s[k + 1..]) == Unterminated(s)
  {
    var tail := s[k + 1..];
    assert tail[|tail| - 1] == s[|s| - 1];
    if s[|s| - 1] == '\n' {
      assert s[..|s| - 1] == s[..k] + ['\n'] + tail[..|tail| - 1];
    } else {
      assert s == s[..k] + ['\n'] + tail;
    }
  }

  /** One line, its boundary, then the lines of the remainder. */
  lemma LineThenRest(s: string, k: nat, width: nat, rest: seq<string>)
    requires k + width <= |s| && 1 <= width <= 2
    requires NoBreak(s[..k])
    requires forall j :: k <= j < k + width ==> IsLineBreak(s[j])
    requires Concat(rest) == WithoutBreaks(s[k + width..])
    ensures Concat([s[..k]] + rest) == WithoutBreaks(s)
  {
    var line, gap, tail := s[..k], s[k..k + width], s[k + width..];
    assert s == line + gap + tail;
    WithoutBreaksAppend(line + gap, tail);
    WithoutBreaksAppend(line, gap);
    WithoutBreaksOfLine(line);
    assert forall j :: 0 <= j < |gap| ==> gap[j] == s[k + j];
    WithoutBreaksOfBreaks(gap);
    ConcatCons(line, rest);
  }

  // ---------------------------------------------------------------------
  // numbers

  /** `\d+\.\d+`: the only number shape the diagnostic patterns capture,
      as the regular expression reads it. */
  ghost predicate DecimalSyntax(t: string) {
    exists k :: 0 < k < |t| - 1 && t[k] == '.' && AllDigits(t[..k]) && AllDigits(t[k + 1..])
  }

  /** The same shape, checked by reading the leading digits first. */
  predicate IsDecimal(t: string) {
    var k := Span(t, 0, Digits);
    0 < k < |t| - 1 && t[k] == '.' && AllDigits(t[k + 1..])
  }

  /** In a decimal, the point sits right after the leading run of digits. */
  lemma DecimalPoint(t: string, k: nat)
    requires 0 < k < |t| - 1 && t[k] == '.' && AllDigits(t[..k]) && AllDigits(t[k + 1..])
    ensures Span(t, 0, Digits) == k
  {
  }

  lemma DecimalShape(t: string)
    ensures IsDecimal(t) <==> DecimalSyntax(t)
  {
    if IsDecimal(t) {
      var k := Span(t, 0, Digits);
      assert AllDigits(t[..k]);
    }
    if DecimalSyntax(t) {
      var k :| 0 < k < |t| - 1 && t[k] == '.' && AllDigits(t[..k]) && AllDigits(t[k + 1..]);
      DecimalPoint(t, k);
    }
  }

  /** The exact value of an unsigned number `whole.frac`, either part possibly empty. */
  function PointValue(whole: string, frac: string): real
    requires AllDigits(whole) && AllDigits(frac)
  {
    DigitsValue(whole) as real + DigitsValue(frac) as real / Pow10(|frac|) as real
  }

  /** The exact value of a decimal `\d+\.\d+`. */
  function DecimalValue(t: string): (v: real)
    requires DecimalSyntax(t)
    ensures v >= 0.0
  {
    DecimalShape(t);
    var k := Span(t, 0, Digits);
    PointValueBounds(t[..k], t[k + 1..]);
    PointValue(t[..k], t[k + 1..])
  }

  /** The value of `whole.frac` lies in `[whole, whole + 1)`: the digits after the
      point never carry into the integer part. */
  lemma PointValueBounds(whole: string, frac: string)
    requires AllDigits(whole) && AllDigits(frac)
    ensures DigitsValue(whole) as real <= PointValue(whole, frac) < DigitsValue(whole) as real + 1.0
  {
    var f := DigitsValue(frac) as real;
    var p := Pow10(|frac|) as real;
    assert 0.0 <= f < p;
    FractionBelowOne(f, p);
  }

  lemma FractionBelowOne(f: real, p: real)
    requires 0.0 <= f < p
    ensures f / p < 1.0
  {
    var q := f / p;
    assert q * p == f;
    if q >= 1.0 {
      assert q * p == p + (q - 1.0) * p;
    }
  }

  /** An unsigned `float()` body: `\d+`, `\d+\.\d*` or `\.\d+`. */
  function UnsignedValue(t: string): (r: Option<real>)
    ensures r.Some? ==> r.value >= 0.0
  {
    var k := Span(t, 0, Digits);
    assert AllDigits(t[..k]);
    if k == |t| then
      if k == 0 then None else Some(PointValue(t, []))
    else if t[k] != '.' || !AllDigits(t[k + 1..]) || (k == 0 && k + 1 == |t|) then None
    else Some(PointValue(t[..k], t[k + 1..]))
  }

  /** `float(text)` on the plain positional notation: surrounding white space
      and one sign are accepted, and the digits are read exactly. */
  function ParseFloat(text: string): (r: Option<real>)
  {
    SignedValue(Strip(text))
  }

  /** An optional sign, then an unsigned number. */
  function SignedValue(t: string): (r: Option<real>)
  {
    if |t| > 0 && (t[0] == '+' || t[0] == '-') then
      match UnsignedValue(t[1..])
      case None => None
      case Some(v) => Some(if t[0] == '-' then -v else v)
    else UnsignedValue(t)
  }

  /** `u` is an unsigned positional number whose digits before the point
      end at `k`: `k == |u|` for a digit string, else `u[k]` is the point,
      digits (possibly none) follow, and at least one digit is present. */
  predicate UnsignedAt(u: string, k: nat) {
    && k <= |u| && AllDigits(u[..k])
    && (k == |u| ==> k > 0)
    && (k < |u| ==> u[k] == '.' && AllDigits(u[k + 1..]) && |u| >= 2)
  }

  /** The exact value of the number `UnsignedAt(u, k)` describes. */
  function AtValue(u: string, k: nat): real
    requires UnsignedAt(u, k)
  {
    if k == |u| then PointValue(u[..k], []) else PointValue(u[..k], u[k + 1..])
  }

  /** What follows an optional leading sign. */
  function Unsigned(t: string): string {
    if |t| > 0 && (t[0] == '+' || t[0] == '-') then t[1..] else t
  }

  /** The sign a leading `-` gives to `v`. */
  function Signed(t: string, v: real): real {
    if |t| > 0 && t[0] == '-' then -v else v
  }

  /** The point position of an unsigned number is where its leading
      digits stop, so it is unique. */
  lemma UnsignedPoint(u: string, k: nat)
    requires UnsignedAt(u, k)
    ensures Span(u, 0, Digits) == k
  {
    assert forall m :: 0 <= m < k ==> u[..k][m] == u[m];
  }

  /** The digits-then-point reading accepts exactly the unsigned shapes. */
  lemma UnsignedValueExact(u: string)
    ensures UnsignedValue(u).Some? <==> UnsignedAt(u, Span(u, 0, Digits))
    ensures forall k :: UnsignedAt(u, k) ==> UnsignedValue(u) == Some(AtValue(u, k))
  {
    var k := Span(u, 0, Digits);
    assert AllDigits(u[..k]);
    forall j: nat | UnsignedAt(u, j) ensures UnsignedValue(u) == Some(AtValue(u, j)) {
      UnsignedPoint(u, j);
      if j == |u| {
        assert u[..j] == u;
      }
    }
  }

  /** `float(text)` succeeds exactly on white space around an optional sign
      and an unsigned positional number, and then gives that number's exact
      value with the sign applied. */
  lemma ParseFloatExact(text: string)
    ensures var u := Unsigned(Strip(text));
      ParseFloat(text).Some? <==> exists k :: UnsignedAt(u, k)
    ensures var t := Strip(text); var u := Unsigned(t);
      forall k :: UnsignedAt(u, k) ==> ParseFloat(text) == Some(Signed(t, AtValue(u, k)))
  {
    ParseFloatSign(text);
    UnsignedValueExact(Unsigned(Strip(text)));
  }

  /** `float()` reads the unsigned part and then applies the sign. */
  lemma ParseFloatSign(text: string)
    ensures var t := Strip(text); var v := UnsignedValue(Unsigned(t));
      ParseFloat(text) == if v.Some? then Some(Signed(t, v.value)) else None
  {
    SignThenUnsigned(Strip(text));
  }

  lemma SignThenUnsigned(t: string)
    ensures var v := UnsignedValue(Unsigned(t));
      SignedValue(t) == if v.Some? then Some(Signed(t, v.value)) else None
  {
  }

  /** `float()` reads a captured decimal as its exact value. */
  lemma ParseDecimal(t: string)
    requires DecimalSyntax(t)
    ensures ParseFloat(t) == Some(DecimalValue(t))
  {
    DecimalShape(t);
    StripDecimal(t);
    assert !(t[0] == '+' || t[0] == '-') by {
      assert InClass(t[0], Digits);
    }
    UnsignedDecimal(t);
  }

  lemma StripDecimal(t: string)
    requires IsDecimal(t)
    ensures Strip(t) == t
  {
    var k := Span(t, 0, Digits);
    assert InClass(t[0], Digits);
    assert t[k + 1..][|t| - k - 2] == t[|t| - 1];
    assert Span(t, 0, Spaces) == 0;
    assert TrailingSpaces(t) == 0;
  }

  lemma UnsignedDecimal(t: string)
    requires DecimalSyntax(t)
    ensures UnsignedValue(t) == Some(DecimalValue(t))
  {
    DecimalShape(t);
  }

  /** `float()` reads a captured run of digits as the integer it spells. */
  lemma ParseDigits(t: string)
    requires t != [] && AllDigits(t)
    ensures ParseFloat(t) == Some(DigitsValue(t) as real)
  {
    StripDigits(t);
    assert !(t[0] == '+' || t[0] == '-') by {
      assert InClass(t[0], Digits);
    }
    UnsignedDigits(t);
  }

  lemma StripDigits(t: string)
    requires t != [] && AllDigits(t)
    ensures Strip(t) == t
  {
    assert InClass(t[0], Digits);
    assert InClass(t[|t| - 1], Digits);
    assert Span(t, 0, Spaces) == 0;
    assert TrailingSpaces(t) == 0;
  }

  lemma UnsignedDigits(t: string)
    requires t != [] && AllDigits(t)
    ensures UnsignedValue(t) == Some(DigitsValue(t) as real)
  {
    SpanAll(t);
    assert t[..|t|] == t;
    assert PointValue(t, []) == DigitsValue(t) as real;
  }

  lemma {:induction false} SpanAll(t: string)
    requires AllDigits(t)
    ensures Span(t, 0, Digits) == |t|
  {
  }

  // ---------------------------------------------------------------------
  // fixed-point formatting

  /** `y` rounded to the nearest integer, ties to the even one. */
  function RoundHalfEven(y: real): (m: int)
    ensures -0.5 <= m as real - y <= 0.5
    ensures y - y.Floor as real == 0.5 ==> m % 2 == 0
  {
    var n := y.Floor;
    if y - n as real < 0.5 then n
    else if y - n as real > 0.5 then n + 1
    else if n % 2 == 0 then n else n + 1
  }

  /** `x` measured in units of the last of `places` decimal places. */
  function Scaled(x: real, places: nat): real {
    x * Pow10(places) as real
  }

  /** `x` in whole units of the last of `places` decimal places: the whole
      number nearest to `Scaled(x, places)`, the even one on a tie. */
  function Units(x: real, places: nat): (n: int)
    ensures -0.5 <= n as real - Scaled(x, places) <= 0.5
    ensures var y := Scaled(x, places); y - y.Floor as real == 0.5 ==> n % 2 == 0
  {
    RoundHalfEven(Scaled(x, places))
  }

  /** The value printed by `f"{x:.{places}f}"`, reading `x` as exact: a whole
      number of units of the last place, so within half a unit of `x`. */
  function Fixed(x: real, places: nat): (f: real)
    ensures f * Pow10(places) as real == Units(x, places) as real
    ensures var h := 0.5 / Pow10(places) as real; -h <= f - x <= h
  {
    var sc := Pow10(places) as real;
    var n := Units(x, places);
    Unscale(n as real, sc);
    FixedBound(x, sc, n);
    n as real / sc
  }

  lemma Unscale(m: real, sc: real)
    requires sc > 0.0
    ensures m / sc * sc == m
  {
  }

  /** No whole number of units is nearer to `x` than the printed value, and
      one as near is the printed value or loses a tie to it by being odd. */
  lemma FixedNearest(x: real, places: nat, m: int)
    ensures var y := Scaled(x, places); var n := Units(x, places);
      var dn := if n as real >= y then n as real - y else y - n as real;
      var dm := if m as real >= y then m as real - y else y - m as real;
      && dn <= dm
      && (dn == dm && m != n ==> n % 2 == 0)
  {
    NearestWhole(Scaled(x, places), Units(x, places), m);
  }

  /** A whole number within half of `y`, even on a tie, is a nearest one. */
  lemma NearestWhole(y: real, k: int, m: int)
    requires -0.5 <= k as real - y <= 0.5
    requires y - y.Floor as real == 0.5 ==> k % 2 == 0
    ensures var dk := if k as real >= y then k as real - y else y - k as real;
      var dm := if m as real >= y then m as real - y else y - m as real;
      && dk <= dm
      && (dk == dm && m != k ==> k % 2 == 0)
  {
    var dk := if k as real >= y then k as real - y else y - k as real;
    var dm := if m as real >= y then m as real - y else y - m as real;
    if dm < dk || (dm == dk && m != k) {
      // two different whole numbers lie at least one apart, so `y` is halfway
      if m < k {
        assert m as real <= k as real - 1.0;
        assert y.Floor == m;
      } else {
        assert m as real >= k as real + 1.0;
        assert y.Floor == k;
      }
    }
  }

  /** A multiple within half a unit of `x * sc`, scaled back, is within half
      a unit of the last place of `x`. */
  lemma FixedBound(x: real, sc: real, n: int)
    requires sc > 0.0 && -0.5 <= n as real - x * sc <= 0.5
    ensures -(0.5 / sc) <= n as real / sc - x <= 0.5 / sc
  {
    Rescale(x, sc);
    Difference(n as real, x * sc, sc);
    DivideBound(n as real - x * sc, sc);
  }

  lemma DivideBound(d: real, sc: real)
    requires sc > 0.0 && -0.5 <= d <= 0.5
    ensures -0.5 / sc <= d / sc <= 0.5 / sc
  {
    NonNegativeQuotient(0.5 - d, sc);
    NonNegativeQuotient(d + 0.5, sc);
    Difference(0.5, d, sc);
    Difference(d, -0.5, sc);
  }

  lemma NonNegativeQuotient(a: real, sc: real)
    requires a >= 0.0 && sc > 0.0
    ensures a / sc >= 0.0
  {
    var q := a / sc;
    assert q * sc == a;
  }

  lemma Rescale(x: real, sc: real)
    requires sc > 0.0
    ensures x * sc / sc == x
  {
  }

  lemma Difference(a: real, b: real, sc: real)
    requires sc > 0.0
    ensures a / sc - b / sc == (a - b) / sc
  {
  }

  /** A value printed to three places is a whole number of thousandths,
      within 0.0005 of the exact one. */
  lemma FixedThree(x: real)
    ensures Fixed(x, 3) * 1000.0 == Units(x, 3) as real
    ensures -0.0005 <= Fixed(x, 3) - x <= 0.0005
  {
    assert Pow10(3) == 1000;
  }

  /** A value printed to two places is a whole number of hundredths,
      within 0.005 of the exact one. */
  lemma FixedTwo(x: real)
    ensures Fixed(x, 2) * 100.0 == Units(x, 2) as real
    ensures -0.005 <= Fixed(x, 2) - x <= 0.005
  {
    assert Pow10(2) == 100;
  }

  /** A whole number rounds to itself. */
  lemma RoundInteger(k: int)
    ensures RoundHalfEven(k as real) == k
  {
    assert (k as real).Floor == k;
  }

  /** A value with at most two decimals prints unchanged to two places. */
  lemma FixedTwoExact(k: int)
    ensures Fixed(k as real / 100.0, 2) == k as real / 100.0
  {
    assert Pow10(2) == 100;
    var x := k as real / 100.0;
    assert x * 100.0 == k as real;
    RoundInteger(k);
  }

  /** Printing a value to two places a second time changes nothing. */
  lemma FixedTwoIdempotent(x: real)
    ensures Fixed(Fixed(x, 2), 2) == Fixed(x, 2)
  {
    assert Pow10(2) == 100;
    var m := RoundHalfEven(x * 100.0);
    assert Fixed(x, 2) == m as real / 100.0;
    FixedTwoExact(m);
  }

  /** A value with at most three decimals prints unchanged to three places. */
  lemma FixedThreeExact(k: int)
    ensures Fixed(k as real / 1000.0, 3) == k as real / 1000.0
  {
    assert Pow10(3) == 1000;
    var x := k as real / 1000.0;
    assert x * 1000.0 == k as real;
    RoundInteger(k);
  }
}

=== FILE: workflow.dfy ===
/** `process_video`: split a video in two at the black scene nearest to its
    middle, cutting each half with the smart cut. */
module Workflow {
  import opened Invoker
  import opened Decoders
  import opened Ffmpeg
  import opened Paths

  /** `abs(a - b)`. */
  function Distance(a: real, b: real): (d: real)
    ensures d >= 0.0 && (d == a - b || d == b - a)
  {
    if a >= b then a - b else b - a
  }

  /** `ts[i]` is nearest to `middle` and every earlier element is strictly farther. */
  ghost predicate FirstNearest(ts: seq<real>, middle: real, i: int) {
    && 0 <= i < |ts|
    && (forall j :: 0 <= j < |ts| ==> Distance(ts[i], middle) <= Distance(ts[j], middle))
    && (forall j :: 0 <= j < i ==> Distance(ts[j], middle) > Distance(ts[i], middle))
  }

  /** The position `min(ts, key=lambda t: abs(t - middle))` picks: a left to
      right scan that replaces its choice only on a strictly smaller key. */
  function NearestIndex(ts: seq<real>, middle: real): (i: nat)
    requires ts != []
    ensures FirstNearest(ts, middle, i)
    decreases |ts|
  {
    if |ts| == 1 then 0
    else
      var init := ts[..|ts| - 1];
      var b := NearestIndex(init, middle);
      assert forall j :: 0 <= j < |init| ==> init[j] == ts[j];
      if Distance(ts[|ts| - 1], middle) < Distance(ts[b], middle) then |ts| - 1 else b
  }

  /** There is only one first nearest position, so ties go to the earliest. */
  lemma FirstNearestUnique(ts: seq<real>, middle: real, i: int, k: int)
    requires FirstNearest(ts, middle, i) && FirstNearest(ts, middle, k)
    ensures i == k
  {
    // each is at most as far as the other, so neither lies strictly before the other
    assert Distance(ts[i], middle) <= Distance(ts[k], middle);
    assert Distance(ts[k], middle) <= Distance(ts[i], middle);
  }

  /** `min(ts, key=...)` itself, which raises on an empty sequence. */
  function Nearest(ts: seq<real>, middle: real): (r: Result<real>)
    ensures r.Err? <==> ts == []
    ensures r.Err? ==> r.failure == EmptyMin
    ensures r.Ok? ==> exists i :: FirstNearest(ts, middle, i) && ts[i] == r.value
  {
    if ts == [] then Err(EmptyMin) else Ok(ts[NearestIndex(ts, middle)])
  }

  /** A lone candidate is chosen whatever the middle; of two candidates
      equally far from the middle, the earlier one is chosen. */
  lemma NearestExamples(t: real, middle: real)
    ensures Nearest([t], middle) == Ok(t)
    ensures Nearest([4.0, 6.0], 5.0) == Ok(4.0)
    ensures Nearest([6.0, 4.0], 5.0) == Ok(6.0)
  {
    assert NearestIndex([4.0, 6.0], 5.0) == 0;
    assert NearestIndex([6.0, 4.0], 5.0) == 0;
  }

  /** One half of the split: `smart_cut_video(path, from, to, output)`. */
  datatype Cut = Cut(from: real, to: real, output: string)

  datatype Outcome =
    | NoBlackScene
    | SplitAt(time: real, first: Cut, second: Cut)

  /** The two halves cut at `t` of a video lasting `duration`. */
  function Halves(p: string, seps: set<char>, t: real, duration: real): (h: (Cut, Cut))
    ensures h.0.from == 0.0 && h.0.to == t && h.1.from == t && h.1.to == duration
    ensures h.0.output == PartName(p, seps, "1") && h.1.output == PartName(p, seps, "2")
    ensures h.0.output != h.1.output
  {
    PartNamesDistinct(p, seps);
    (Cut(0.0, t, PartName(p, seps, "1")), Cut(t, duration, PartName(p, seps, "2")))
  }

  /** Both smart cuts, the second only when the first succeeded. */
  function CutHalves(tool: Command -> Reply, first: Cut, second: Cut): (r: Run<()>)
    ensures var c1 := SmartCut(tool, first.from, first.to, first.output);
      var c2 := SmartCut(tool, second.from, second.to, second.output);
      && r.issued == c1.issued + (if c1.outcome.Ok? then c2.issued else [])
      && (r.outcome.Ok? <==> c1.outcome.Ok? && c2.outcome.Ok?)
  {
    var cut1 := SmartCut(tool, first.from, first.to, first.output);
    if cut1.outcome.Err? then
      assert cut1.issued + [] == cut1.issued;
      Run(cut1.issued, Err(cut1.outcome.failure))
    else
      var cut2 := SmartCut(tool, second.from, second.to, second.output);
      Run(cut1.issued + cut2.issued, cut2.outcome)
  }

  /** Both cuts at `t`, reported as the split they make. */
  function SplitAtTime(tool: Command -> Reply, p: string, seps: set<char>, t: real, duration: real): (r: Run<Outcome>)
    ensures var h := Halves(p, seps, t, duration);
      && r.issued == CutHalves(tool, h.0, h.1).issued
      && (r.outcome.Ok? <==> CutHalves(tool, h.0, h.1).outcome.Ok?)
      && (r.outcome.Ok? ==> r.outcome.value == SplitAt(t, h.0, h.1))
    ensures r.outcome.Ok? ==>
      r.issued == SmartCut(tool, 0.0, t, PartName(p, seps, "1")).issued + SmartCut(tool, t, duration, PartName(p, seps, "2")).issued
  {
    var h := Halves(p, seps, t, duration);
    var first := h.0;
    var second := h.1;
    var cuts := CutHalves(tool, first, second);
    if cuts.outcome.Err? then Run(cuts.issued, Err(cuts.outcome.failure))
    else Run(cuts.issued, Ok(SplitAt(t, first, second)))
  }

  /** What follows the detection when black scenes were found: the
      metadata, the nearest black scene, and the two cuts there. */
  function SplitAtNearest(tool: Command -> Reply, p: string, seps: set<char>, times: seq<real>): (r: Run<Outcome>)
    requires times != []
    ensures |r.issued| >= 1 && r.issued[0] == ProbeCodec
    // a failed metadata read ends the run with its own failure
    ensures var meta := GetVideoMetadata(tool);
      meta.outcome.Err? ==> r == Run(meta.issued, Err(meta.outcome.failure))
  {
    var meta := GetVideoMetadata(tool);
    if meta.outcome.Err? then Run(meta.issued, Err(meta.outcome.failure))
    else
      var duration := meta.outcome.value.duration;
      var split := SplitAtTime(tool, p, seps, Nearest(times, duration / 2.0).value, duration);
      Run(meta.issued + split.issued, split.outcome)
  }

  /** `process_video`: black-scene detection; nothing more when there is no
      black scene; otherwise the duration, the black scene nearest to the
      middle, and the two smart cuts `[0, t]` then `[t, duration]`. */
  function ProcessVideo(tool: Command -> Reply, p: string, seps: set<char>,
                        minDuration: real, pictureTh: real, pixelTh: real): (r: Run<Outcome>)
    ensures |r.issued| >= 1 && r.issued[0] == BlackDetect(minDuration, pictureTh, pixelTh)
    ensures var detect := DetectBlackScene(tool, minDuration, pictureTh, pixelTh);
      detect.outcome == Ok([]) ==> r == Run(detect.issued, Ok(NoBlackScene))
    ensures r.outcome == Ok(NoBlackScene) ==>
      r.issued == [BlackDetect(minDuration, pictureTh, pixelTh)] &&
      BlackMidpoints(tool(BlackDetect(minDuration, pictureTh, pixelTh)).output) == []
    ensures var times := BlackMidpoints(tool(BlackDetect(minDuration, pictureTh, pixelTh)).output);
      r.outcome.Ok? && r.outcome.value.SplitAt? ==>
        times != [] && r == Run([BlackDetect(minDuration, pictureTh, pixelTh)] + SplitAtNearest(tool, p, seps, times).issued,
                                SplitAtNearest(tool, p, seps, times).outcome)
    // a failed detection ends the run with its own failure
    ensures var detect := DetectBlackScene(tool, minDuration, pictureTh, pixelTh);
      detect.outcome.Err? ==> r == Run(detect.issued, Err(detect.outcome.failure))
    ensures r.outcome == Ok(NoBlackScene) <==>
      DetectBlackScene(tool, minDuration, pictureTh, pixelTh).outcome == Ok([])
    // after black scenes were found, the run is the split, failures included
    ensures var detect := DetectBlackScene(tool, minDuration, pictureTh, pixelTh);
      detect.outcome.Ok? && detect.outcome.value != [] ==>
        var split := SplitAtNearest(tool, p, seps, detect.outcome.value);
        r == Run([BlackDetect(minDuration, pictureTh, pixelTh)] + split.issued, split.outcome)
  {
    var detect := DetectBlackScene(tool, minDuration, pictureTh, pixelTh);
    match detect.outcome
    case Err(f) => Run(detect.issued, Err(f))
    case Ok(times) =>
      if times == [] then Run(detect.issued, Ok(NoBlackScene))
      else
        var split := SplitAtNearest(tool, p, seps, times);
        Run(detect.issued + split.issued, split.outcome)
  }

  /** Once the metadata is read, the run is the metadata probes followed by
      the split at the first time nearest to the middle, whatever its outcome;
      so the whole run succeeds exactly when the metadata read and both cuts
      there succeed. */
  lemma SplitAtNearestSucceeds(tool: Command -> Reply, p: string, seps: set<char>, times: seq<real>)
    requires times != []
    ensures var meta := GetVideoMetadata(tool);
      meta.outcome.Ok? ==>
        var duration := meta.outcome.value.duration;
        var split := SplitAtTime(tool, p, seps, Nearest(times, duration / 2.0).value, duration);
        SplitAtNearest(tool, p, seps, times) == Run(MetadataProbes + split.issued, split.outcome)
    ensures SplitAtNearest(tool, p, seps, times).outcome.Ok? <==>
      && GetVideoMetadata(tool).outcome.Ok?
      && var duration := GetVideoMetadata(tool).outcome.value.duration;
         SplitAtTime(tool, p, seps, Nearest(times, duration / 2.0).value, duration).outcome.Ok?
  {
  }

  /** A split that succeeded read the metadata and cut at the nearest time. */
  lemma SplitStages(tool: Command -> Reply, p: string, seps: set<char>, times: seq<real>)
    requires times != []
    requires SplitAtNearest(tool, p, seps, times).outcome.Ok?
    ensures GetVideoMetadata(tool).outcome.Ok?
    ensures var duration := GetVideoMetadata(tool).outcome.value.duration;
      var split := SplitAtTime(tool, p, seps, Nearest(times, duration / 2.0).value, duration);
      && SplitAtNearest(tool, p, seps, times).issued == MetadataProbes + split.issued
      && SplitAtNearest(tool, p, seps, times).outcome == split.outcome
  {
  }

  /** A split is made at the first black scene nearest to the middle, and
      its halves are `[0, t]` and `[t, duration]`. */
  lemma SplitNearest(tool: Command -> Reply, p: string, seps: set<char>, times: seq<real>)
    requires times != []
    requires SplitAtNearest(tool, p, seps, times).outcome.Ok?
    ensures SplitAtNearest(tool, p, seps, times).outcome.value.SplitAt?
    ensures var o := SplitAtNearest(tool, p, seps, times).outcome.value;
      var duration := GetVideoMetadata(tool).outcome.value.duration;
      exists i :: FirstNearest(times, duration / 2.0, i) && times[i] == o.time
    ensures var o := SplitAtNearest(tool, p, seps, times).outcome.value;
      var duration := GetVideoMetadata(tool).outcome.value.duration;
      (o.first, o.second) == Halves(p, seps, o.time, duration)
  {
  }

  /** After the detection, a split issues the metadata probes, the whole
      cut of the first half `[0, t]`, then the whole cut of the second half
      `[t, duration]`. */
  lemma SplitOrder(tool: Command -> Reply, p: string, seps: set<char>, times: seq<real>)
    requires times != []
    requires SplitAtNearest(tool, p, seps, times).outcome.Ok?
    ensures SplitAtNearest(tool, p, seps, times).outcome.value.SplitAt?
    ensures var o := SplitAtNearest(tool, p, seps, times).outcome.value;
      var duration := GetVideoMetadata(tool).outcome.value.duration;
      SplitAtNearest(tool, p, seps, times).issued ==
        MetadataProbes +
        (SmartCut(tool, 0.0, o.time, PartName(p, seps, "1")).issued +
         SmartCut(tool, o.time, duration, PartName(p, seps, "2")).issued)
  {
    SplitStages(tool, p, seps, times);
  }
}
